=== FILE: README.md ===
# Telegram relay bot — relay and correlation core in Dafny

The bot relays private messages from several Telegram user accounts (TDLight
sessions) to one operator chat through a Bots API bot. It also routes each
operator reply to the chat it answers, through the session registered under the
api id recorded for the notification.

This project models the core of that program:

- **Correlation store** (`MessageMapper`). A map from notification id to the
  pair `(apiId, chatId)`. It is written to a JSON object after every change,
  as decimal key to a two-element list. A lenient decoder reads it back at
  startup.
- **Credential store** (`Credentials`). An append-only list of
  `(api_id, api_hash, phonenumber)` records with load fallbacks.
- **Forward converter** (`MessageConverter`). Turns a TDLib message into a
  Bots API send method. It downloads media through an abstract fetch/copy
  oracle, and a failure is raised.
- **Reverse converter** (`ReverseMessageConverter`). Turns an operator reply
  into a TDLib `SendMessage`. A failed download is degraded to an error text.
- **Admin dispatch** (`Bot`). The `onUpdateReceived` state machine with its
  `waitingForCode` flag, `waitForCode`, the `send_message` guard and the
  `execute` dispatch.
- **Program flow** (`ProgramFlow`). Five parts:
  - the relay decision of the new-message handler, as one pure function over
    already-resolved chat, user and send results;
  - the caption;
  - `/add` parsing and its ordered effects;
  - reply routing;
  - startup, as a loop over the stored credentials.

Supporting modules model the Java library behaviour the core relies on:

- `Decimal`: `Long.toString`, `Long.parseLong` and `Integer.parseInt`.
- `JavaText`: `trim`, `split("\\s+")`, `replaceFirst`, `startsWith` and
  `String.format` with `%s`.
- `TdApi` and `BotApi`: the value types of the two client libraries.

Persistence is explicit: each store carries the image last written to its
file, and `Synced` relates that image to the in-memory state. Callbacks into
code outside the model are function-typed parameters:

- `Fetcher`/`Copier`: TDLib download and temp-file copy.
- `Downloader`: the Bots API file download.
- `UserLookup`: TDLib `GetUser`.
- `SessionStarter`: whether a `UserBot` session starts.

### Where the model follows the code rather than the documented intent

- **Null JSON document.** Gson gives `null` for an empty document, and
  `deserializeMap` then dereferences it. Loading the correlation store
  therefore fails (`NullDocument`), and the `mapping == null` fallback is
  unreachable.
- **Errors that escape loading.** A non-numeric key and a JSON syntax error
  escape the correlation-store load, because only `IOException` is caught.
  A syntax error likewise escapes the credential load.
- **Failed user lookup.** When the user lookup fails, the error is logged and
  the message is dropped. It is not relayed without a sender.
- **Null user slot.** When the sender is a chat, or is the account itself,
  the user slot is null. The `id` dereference in the completion stage then
  throws, so nothing is sent, recorded or marked read.
- **Null usernames.** TDLib leaves a user's `usernames` object null when the
  user has no username. Building the sender info reads
  `user.usernames.activeUsernames` without a null check, so such a message is
  dropped (`NullUsernames`) before the send. Nothing is recorded or marked read.
- **Sessions keyed by api id.** Sessions are keyed by api id alone. A later
  credential with the same api id, at startup or through `/add`, replaces the
  earlier session. Replies to messages relayed earlier then go through the new
  credential's session. The earlier account's message handler also reads the
  client under its api id when each message arrives (ProgramFlow.java:75, 85,
  98, 129). So it then uses the newcomer's client for `GetChat`, `getMe`,
  `GetUser` and `ViewMessages`. The model takes the chat and the account's own
  id as inputs to the relay decision, so this does not change it.
- **Send outcome as an input.** The handler calls a three-argument converter
  and a four-argument `UserBot` constructor that the sources do not define.
  The relay model therefore takes the outcome of the send as an input. The
  caption and the two-argument converter are modelled separately.

## Model

| member | source | states |
|---|---|---|
| MessageMapper.GetMapping | src/main/java/org/example/MessageMapper.java:50-52 | the lookup is present exactly for recorded ids and returns the recorded pair |
| MessageMapper.PutMapping | src/main/java/org/example/MessageMapper.java:61-65 | afterwards the id maps to (apiId, chatId), every other id is unchanged, the key set grows by that id, and the file image equals the encoding of the new map |
| MessageMapper.RemoveMapping | src/main/java/org/example/MessageMapper.java:73-76 | afterwards the id is absent, every other id is unchanged, and the file image equals the encoding of the new map |
| MessageMapper.LastWriteWins | src/main/java/org/example/MessageMapper.java:63 | a second put on the same id overwrites the first |
| MessageMapper.ApplyHistory | src/main/java/org/example/MessageMapper.java:61-76 | after any sequence of puts and removes, each id holds its last write (absent if last removed, unchanged if never touched), and a non-empty history leaves the file in sync |
| MessageMapper.Encode | src/main/java/org/example/MessageMapper.java:84-90 | every id appears under its decimal text as [apiId, chatId], and every JSON key comes from some id |
| MessageMapper.DecodeEntries | src/main/java/org/example/MessageMapper.java:129-135 | decoding succeeds exactly when every key parses as a long; on failure the error names a key of the document that does not parse |
| MessageMapper.DecodedKeys | src/main/java/org/example/MessageMapper.java:129-135 | the decoded ids are exactly the numbers of members whose list has two elements |
| MessageMapper.DeserializeMap | src/main/java/org/example/MessageMapper.java:119-137 | a null document fails; otherwise success iff all keys parse |
| MessageMapper.WrongArityDropped | src/main/java/org/example/MessageMapper.java:132-134 | removing all members whose list does not have two elements does not change the decoded map |
| MessageMapper.DecodeEncode | src/main/java/org/example/MessageMapper.java:84-90 | decoding the encoding of a map, listed in any member order, gives the map back |
| MessageMapper.LoadFromFile | src/main/java/org/example/MessageMapper.java:101-117 | a missing or unreadable file gives the empty map, a malformed or null document fails, otherwise the decoded document |
| MessageMapper.Open | src/main/java/org/example/MessageMapper.java:39-42 | the store opens exactly when loading succeeds, holds the loaded map and has written nothing yet |
| MessageMapper.ReloadAfterWrite | src/main/java/org/example/MessageMapper.java:82-117 | a store whose file image is current reopens from that file to the same map |
| Credentials.LoadCredentials | src/main/java/org/example/CredentialsService.java:25-38 | loading fails only on malformed JSON; a missing, unreadable or null document gives the empty list, otherwise the parsed list |
| Credentials.GetCredentials | src/main/java/org/example/CredentialsService.java:66-68 | the list handed out is the stored list, which once written is exactly the list in the file |
| Credentials.ReloadAfterWrite | src/main/java/org/example/CredentialsService.java:25-59 | a list written by `saveCredentials` loads back, through `loadCredentials`, to the same list |
| Credentials.AddCredential | src/main/java/org/example/CredentialsService.java:45-48 | appends at the end (length + 1, old list as prefix, new credential last, same multiset plus it) and rewrites the file with the whole list |
| Credentials.AddAllInOrder | src/main/java/org/example/CredentialsService.java:45-68 | successive adds return the old list followed by the added credentials in order, with the file in sync |
| Credentials.DuplicateApiIdKept | src/main/java/org/example/CredentialsService.java:45-46 | adding a credential whose api id is already stored keeps both entries |
| MessageConverter.DownloadFileSync | src/main/java/org/example/MessageConverter.java:102-126 | the copied path is returned iff fetch and copy both succeed; a fetch failure or timeout gives the download error text, a copy failure the copy error text |
| MessageConverter.ConvertTdlightMessage | src/main/java/org/example/MessageConverter.java:32-93 | every result targets the decimal chat id, and each content kind maps to its own send kind; text is copied exactly and other kinds give the unsupported text; media succeeds iff the download of the last photo size or the media file succeeds, references the downloaded path, and otherwise propagates the error |
| MessageConverter.ChatIdReadsBack | src/main/java/org/example/MessageConverter.java:33 | the chat id text of every converted method parses back to the source chat id |
| ReverseMessageConverter.ConvertTelegramMessage | src/main/java/org/example/ReverseMessageConverter.java:37-125 | the request targets the given chat; non-empty text wins and is copied; media of the selected kind carries the downloaded file, the caption or "" and the voice duration; a failed download becomes the kind's error prefix plus the error message; otherwise the unsupported text |
| ReverseMessageConverter.EmptyTextFallsThrough | src/main/java/org/example/ReverseMessageConverter.java:43 | an empty text is treated exactly like a missing one |
| ReverseMessageConverter.TextExactlyWhenNoMedia | src/main/java/org/example/ReverseMessageConverter.java:43-122 | the content is text iff no media kind was selected or its download failed, and such text is never empty |
| Bot.OnUpdateReceived | src/main/java/org/example/Bot.java:35-61 | non-admin updates do nothing; a reply is always routed, even while waiting; while waiting, a non-reply completes the pending code and rearms; `/add` is run iff admin, non-reply, not waiting and the text starts with `/add`; a null text throws; any other admin text is ignored; a code is completed only while waiting and a reply routed only for replies; only code completion changes the state |
| Bot.WaitForCode | src/main/java/org/example/Bot.java:63-66 | sets the flag and hands out the currently pending code future |
| Bot.CodeGoesToPendingFuture | src/main/java/org/example/Bot.java:40-66 | after waitForCode, any number of replies leave the state unchanged, and the next non-reply completes the future waitForCode returned |
| Bot.DeliverAllReplies | src/main/java/org/example/Bot.java:40-41 | admin replies never change the dispatch state |
| Bot.SendAdminMessage | src/main/java/org/example/Bot.java:82-97 | a message is produced iff the text is non-null and non-empty; it is a SendMessage carrying that text to a chat id that parses back to the admin id |
| Bot.Execute | src/main/java/org/example/Bot.java:99-112 | the five handled method kinds are sent unchanged; any other kind is dropped |
| ProgramFlow.SenderInfo | src/main/java/org/example/ProgramFlow.java:108-113 | absent (the read throws) exactly when a user is present whose usernames object is null; " (@first active username)" when the user has one, and empty for a null user or an empty username list |
| ProgramFlow.Caption | src/main/java/org/example/ProgramFlow.java:108-117 | absent exactly when the sender info throws; otherwise "New message from " + title + " " + sender info + ":\n", with " (@first active username)" when the user has one and nothing otherwise |
| ProgramFlow.CaptionIsFormatted | src/main/java/org/example/ProgramFlow.java:108-117 | where the sender info exists, the caption is exactly what the format string makes of (title, sender info, formatted time): it has two `%s`, so the time never appears |
| ProgramFlow.UserToLookUp | src/main/java/org/example/ProgramFlow.java:83-93 | a user lookup is issued iff the sender is a user other than the account itself, and for that user |
| ProgramFlow.Enrich | src/main/java/org/example/ProgramFlow.java:74-94 | chat failures propagate; null comes exactly from group and supergroup chats; any other resolved chat whose lookup (if issued) succeeds gives the chat with a user slot filled exactly when a lookup is issued, from that lookup's result; a failed lookup propagates |
| ProgramFlow.NoLookupForSelfOrChat | src/main/java/org/example/ProgramFlow.java:83-93 | for chat senders and the account's own messages the result does not depend on the user lookup |
| ProgramFlow.HandleNewMessage | src/main/java/org/example/ProgramFlow.java:95-131 | relayed iff the chat resolved, is not a group, a different user was looked up successfully, is not the account, has a non-null usernames object, and the send succeeded; a relay records sent id → (apiId, source chat), carries the caption built for that user, and marks that source message read in that chat; every other outcome leaves the store unchanged; groups are skipped, a null user slot relays nothing, and a user with null usernames is dropped before the send; a failed chat or user lookup ends as LookupFailed with that error, the account's own user as OwnAccount, and a failed send of an otherwise relayable message as SendFailed with the send's error |
| ProgramFlow.AddArgumentsAreTokens | src/main/java/org/example/ProgramFlow.java:149 | the command text yields at least one token, and either the single token "" or only non-empty whitespace-free tokens |
| ProgramFlow.ParseAddCommand | src/main/java/org/example/ProgramFlow.java:149-151 | parsing the text never fails for a missing token 0, and a parsed hash and phone number are non-empty and free of whitespace |
| ProgramFlow.ParseArguments | src/main/java/org/example/ProgramFlow.java:151 | succeeds iff there are at least three tokens and the first parses as an int, giving (token 0, token 1, token 2) and ignoring the rest; no tokens, a bad first token, or one or two tokens each fail with their own error, in that order of evaluation |
| ProgramFlow.AddArgumentsNeverEmpty | src/main/java/org/example/ProgramFlow.java:149-151 | the command text always yields at least one token, so a missing token 0 never occurs |
| ProgramFlow.BareAddCommand | src/main/java/org/example/ProgramFlow.java:149-151 | a bare "/add" fails parsing the api id "" and leaves stores and sessions unchanged with no effects |
| ProgramFlow.WellFormedAddCommand | src/main/java/org/example/ProgramFlow.java:149-151 | "/add <id> <hash> <phone>" followed by any whitespace-led text parses back to exactly that credential |
| ProgramFlow.ProcessAddCommand | src/main/java/org/example/ProgramFlow.java:148-155 | malformed input changes nothing and has no effect; otherwise the credential is appended first, then the session is started, then the confirmation is sent to the admin; a failed session start stops after the append |
| ProgramFlow.Startup | src/main/java/org/example/ProgramFlow.java:30-42 | startup succeeds iff both stores load and every stored credential starts a session; it holds the loaded stores and one session per stored api id, each for a stored credential with that id, namely the last credential listed under that id |
| ProgramFlow.HandleReply | src/main/java/org/example/ProgramFlow.java:157-167 | a reply is sent iff it answers a recorded notification whose api id has a session; it goes through the session under that api id to the recorded chat, as the reverse conversion of the reply; a missing mapping fails before any send; the store is not touched |
| ProgramFlow.OnUpdate | src/main/java/org/example/Bot.java:35-61 | handling an update never changes the correlation store, and only an `/add` command changes the stores or sessions; a routed admin reply emits exactly the send the reply handler produces (nothing when it fails), an `/add` command performs the add command's state change and effects, a code reply while waiting completes the pending code future with that text, and an ignored update or one without text emits nothing |
| ProgramFlow.CodeWaitShadowsAdd | src/main/java/org/example/Bot.java:44-57 | while a code is awaited, an `/add` message is delivered as the code and no store changes |
| ProgramFlow.RelayThenReplyRoutesBack | src/main/java/org/example/ProgramFlow.java:119-163 | a reply to a relayed notification is sent through the session registered under the relaying api id, to the chat the message came from |
| ProgramFlow.RelaysDoNotInterfere | src/main/java/org/example/ProgramFlow.java:120 | two relays with distinct notification ids both remain routable |
| ProgramFlow.TextRoundTrip | src/main/java/org/example/ProgramFlow.java:119-163 | a private text is forwarded as that text to its chat, and a non-empty text reply to its notification returns as that text, through the session under the relaying api id, to the origin chat |
| ProgramFlow.ReusedApiIdTakesOverReplies | src/main/java/org/example/ProgramFlow.java:152-163 | after `/add` starts a session for another credential with the same api id, that credential holds the session, and a reply to an earlier relay goes through it |
| ProgramFlow.MediaFailurePolicies | src/main/java/org/example/MessageConverter.java:109-114 | a failed media download is raised towards the operator but degraded to text towards the account |
| ProgramFlow.ConvertedMethodIsExecuted | src/main/java/org/example/Bot.java:99-112 | every method the forward converter produces is one that execute sends |
| Decimal.ParseLongToDecimal | src/main/java/org/example/MessageMapper.java:87 | the decimal text of every long parses back to it, which makes stored keys readable |
| Decimal.ParseIntToDecimal | src/main/java/org/example/ProgramFlow.java:151 | the decimal text of every int parses back to it |
| Decimal.ToDecimalInjective | src/main/java/org/example/MessageMapper.java:87 | distinct ids have distinct decimal keys, so the encoding loses no entry |
| JavaText.WordsEmptyIffAllSpace | src/main/java/org/example/ProgramFlow.java:149 | the text has no maximal non-whitespace runs exactly when it is all whitespace |
| JavaText.WordsHaveNoSpace | src/main/java/org/example/ProgramFlow.java:149 | no run contains a whitespace character |
| JavaText.WordsAppend | src/main/java/org/example/ProgramFlow.java:149 | at a whitespace boundary the runs of a concatenation are the runs of each part, in order; with the two lemmas above this determines the runs completely |
| JavaText.Split | src/main/java/org/example/ProgramFlow.java:149 | "" gives [""]; all-whitespace text gives []; text led by whitespace gives "" followed by its maximal non-whitespace runs; any other text gives just those runs |
| JavaText.TrimEndAppend | src/main/java/org/example/ProgramFlow.java:149 | trimming the end of text after a printable character trims only what follows it |

## Left out

- File I/O and Gson are replaced by explicit file states. Encoding and decoding act on
  a JSON object as a map (when written) and as a member list in document order (when read).
- Write failures in `saveToFile` and `saveCredentials` are printed and ignored. The
  model's image is the one that would have been written.
- `synchronized` and the concurrency of the TDLight and Bots API callbacks are not
  modelled; each operation is one atomic step.
- UserBot (TDLight native init, authorisation, logging) is not part of this model. Whether
  a session starts is the `SessionStarter` parameter.
- TelegramFileDownloader (HTTP and temp files) is not part of this model. It is the
  `Downloader` parameter. The TDLib download, the 30-second wait and the copy are the
  `Fetcher` and `Copier` parameters.
- BotConfig loading, bot registration with the Bots API (`registerBot`) and Main are not
  part of this model. The configuration is the `Config` value.
- The `DateTimeFormatter` timestamp is a string parameter. The format string ignores it.
- The unused `text` computation at ProgramFlow.java:64-70 and the unused `Bot.MessageData`
  class are left out.
- The asynchronous chain (`thenComposeAsync`, `whenCompleteAsync`) is a single decision
  over resolved values. Sending the view request is an output value.
- ProgramFlow.HandleNewMessage: the three-argument converter and the four-argument
  UserBot constructor it calls are not defined in the sources. The send outcome
  (notification id or error) is therefore an input and is not derived from the
  converter.
- Decimal.ParseInteger: accepts ASCII digits only. Java's parsers also accept other
  Unicode decimal digits.
- MessageMapper.DecodeEntries: list elements are 64-bit numbers. Null elements inside a
  JSON list and numbers outside the long range are not modelled.
- MessageMapper.DecodeEntries: a document with a duplicate key is decoded, with the later
  member winning. Gson rejects such a document with a syntax error, which would be
  `MalformedJson`.
- MessageMapper.DecodeEntries: a member whose value is JSON `null` cannot be written. The
  `values.size()` call at MessageMapper.java:132 would throw on it.
- Credentials.LoadCredentials: the stored list holds no `null` elements. A `null` element
  would throw when startup reads its api id at ProgramFlow.java:37.
- ProgramFlow.RelayThenReplyRoutesBack: routing is by api id only. The session under that
  api id belongs to the relaying credential only while no later credential reuses the api
  id (`ReusedApiIdTakesOverReplies`).
- Once the TDLib send completes, the result callback in `handleReply` only prints. It is
  left out.
- The identity of `CompletableFuture` objects is a counter (`codeFuture`). Completing a
  future is the `CodeDelivered` effect.

=== FILE: bot.dfy ===
/**
 * The operator-side bot: which action an incoming update triggers, the
 * one-flag wait for a login code, the admin-only text send and the dispatch
 * of send methods to their typed `execute` overloads.
 */
module Bot {
  import opened Wrappers
  import opened Decimal
  import opened BotApi
  import opened JavaText

  const ADD_COMMAND: string := "/add"

  datatype Config = Config(botToken: string, botUsername: string, adminId: Int64)

  /** `waitingForCode` and the generation number of the pending code future. */
  datatype State = State(waitingForCode: bool, codeFuture: nat)

  /** What `onUpdateReceived` does with an update. */
  datatype Action =
    | Ignore
    | RouteReply(message: Message)                   // flow.handleReply
    | CompleteCode(future: nat, code: Option<string>) // codeFuture.complete(text)
    | RunAddCommand(message: Message)                // flow.processAddCommand
    | NullTextFailure                                // text.startsWith on a message without text

  predicate FromAdmin(config: Config, update: Update) {
    update.message.Some? && update.message.value.chatId == config.adminId
  }

  /** `onUpdateReceived`: admin messages only; a reply first, then a pending code, then `/add`. */
  function OnUpdateReceived(config: Config, st: State, update: Update): (r: (State, Action))
    ensures !FromAdmin(config, update) ==> r == (st, Ignore)
    ensures FromAdmin(config, update) && update.message.value.replyTo.Some? ==>
      r == (st, RouteReply(update.message.value))
    ensures FromAdmin(config, update) && update.message.value.replyTo.None? && st.waitingForCode ==>
      r == (State(false, st.codeFuture + 1), CompleteCode(st.codeFuture, update.message.value.text))
    ensures r.1.RunAddCommand? <==>
      && FromAdmin(config, update) && update.message.value.replyTo.None? && !st.waitingForCode
      && update.message.value.text.Some? && StartsWith(update.message.value.text.value, ADD_COMMAND)
    ensures r.1.RunAddCommand? ==> r.1.message == update.message.value
    ensures r.1.NullTextFailure? <==>
      FromAdmin(config, update) && update.message.value.replyTo.None? && !st.waitingForCode
      && update.message.value.text.None?
    ensures !r.1.CompleteCode? ==> r.0 == st
    ensures r.1.CompleteCode? ==> FromAdmin(config, update) && update.message.value.replyTo.None? && st.waitingForCode
    ensures r.1.RouteReply? ==> FromAdmin(config, update) && update.message.value.replyTo.Some?
    ensures (&& FromAdmin(config, update) && update.message.value.replyTo.None? && !st.waitingForCode
             && update.message.value.text.Some? && !StartsWith(update.message.value.text.value, ADD_COMMAND))
            ==> r == (st, Ignore)
  {
    if !FromAdmin(config, update) then (st, Ignore)
    else
      var message := update.message.value;
      if message.replyTo.Some? then (st, RouteReply(message))
      else if st.waitingForCode then (State(false, st.codeFuture + 1), CompleteCode(st.codeFuture, message.text))
      else if message.text.None? then (st, NullTextFailure)
      else if StartsWith(message.text.value, ADD_COMMAND) then (st, RunAddCommand(message))
      else (st, Ignore)
  }

  /** `waitForCode`: raise the flag and hand out the pending future. */
  function WaitForCode(st: State): (r: (State, nat))
    ensures r.0.waitingForCode
    ensures r.1 == st.codeFuture == r.0.codeFuture
  {
    (State(true, st.codeFuture), st.codeFuture)
  }

  /**
   * After `waitForCode`, any number of replies leave the wait armed, and the
   * next plain admin message completes the future handed out, even if it is
   * an `/add` command, after which a fresh future is pending and the flag is down.
   */
  lemma {:induction false} CodeGoesToPendingFuture(config: Config, st: State, replies: seq<Message>, code: Message)
    requires forall i :: 0 <= i < |replies| ==> replies[i].chatId == config.adminId && replies[i].replyTo.Some?
    requires code.chatId == config.adminId && code.replyTo.None?
    ensures
      var (armed, future) := WaitForCode(st);
      var after := DeliverAll(config, armed, replies);
      after == armed
      && OnUpdateReceived(config, after, Update(Some(code))) == (State(false, future + 1), CompleteCode(future, code.text))
  {
    var (armed, future) := WaitForCode(st);
    DeliverAllReplies(config, armed, replies);
  }

  function DeliverAll(config: Config, st: State, messages: seq<Message>): State
    decreases |messages|
  {
    if |messages| == 0 then st
    else DeliverAll(config, OnUpdateReceived(config, st, Update(Some(messages[0]))).0, messages[1..])
  }

  lemma {:induction false} DeliverAllReplies(config: Config, st: State, replies: seq<Message>)
    requires forall i :: 0 <= i < |replies| ==> replies[i].chatId == config.adminId && replies[i].replyTo.Some?
    ensures DeliverAll(config, st, replies) == st
    decreases |replies|
  {
    if |replies| > 0 {
      DeliverAllReplies(config, st, replies[1..]);
    }
  }

  /** `send_message`: nothing for a null or empty text, otherwise a text message to the admin chat. */
  function SendAdminMessage(config: Config, text: Option<string>): (r: Option<Method>)
    ensures r.Some? <==> text.Some? && |text.value| > 0
    ensures r.Some? ==> r.value.SendMessage? && r.value.text == text.value
    ensures r.Some? ==> ParseLong(r.value.chatId) == Some(config.adminId)
  {
    ParseLongToDecimal(config.adminId);
    if text.Some? && |text.value| > 0 then Some(SendMessage(ToDecimal(config.adminId), text.value)) else None
  }

  /** `execute(PartialBotApiMethod)`: the typed call made, or None (null, nothing sent) for any other method. */
  function Execute(m: Method): (r: Option<Method>)
    ensures r.Some? <==> !m.OtherMethod?
    ensures r.Some? ==> r.value == m
  {
    match m
    case OtherMethod(_) => None
    case _ => Some(m)
  }
}

=== FILE: bot_api.dfy ===
/**
 * The Telegram Bots API values the relay core reads and builds, reduced to the
 * fields it touches. `None` stands for a getter returning null.
 */
module BotApi {
  import opened Wrappers
  import opened Decimal

  datatype PhotoSize = PhotoSize(fileId: string)

  datatype Voice = Voice(fileId: string, duration: Int32)

  /**
   * An incoming message. `sticker` and `animation` hold the file id of the
   * attached object; `replyTo` holds the message id of the replied-to message.
   */
  datatype Message = Message(
    messageId: Int32,
    chatId: Int64,
    text: Option<string>,
    caption: Option<string>,
    photo: Option<seq<PhotoSize>>,
    voice: Option<Voice>,
    sticker: Option<string>,
    animation: Option<string>,
    replyTo: Option<Int32>)

  datatype Update = Update(message: Option<Message>)

  /** Outgoing API methods; chat ids travel as decimal strings. */
  datatype Method =
    | SendMessage(chatId: string, text: string)
    | SendPhoto(chatId: string, photo: string)
    | SendVoice(chatId: string, voice: string)
    | SendSticker(chatId: string, sticker: string)
    | SendAnimation(chatId: string, animation: string)
    | OtherMethod(name: string)
}

=== FILE: credentials.dfy ===
/**
 * The credential list: an append-only sequence of account descriptors,
 * rewritten in full to its JSON file after every addition.
 */
module Credentials {
  import opened Wrappers
  import opened Decimal

  /** One account: application id, application hash and phone number. */
  datatype Credential = Credential(apiId: Int32, apiHash: string, phoneNumber: string)

  /** The in-memory list and the list last written to the file (None until the first write). */
  datatype Store = Store(credentials: seq<Credential>, persisted: Option<seq<Credential>>)

  /** What opening and parsing the credentials file yields; `Parsed(None)` is a JSON null or an empty file. */
  datatype CredentialsFile =
    | Missing
    | Unreadable
    | Parsed(list: Option<seq<Credential>>)
    | Malformed

  /** A JSON syntax error is not an IOException and escapes the constructor. */
  datatype LoadError = MalformedJson

  predicate Synced(s: Store) {
    s.persisted == Some(s.credentials)
  }

  /** `loadCredentials`: a missing file, a null parse or an IO error all give the empty list. */
  function LoadCredentials(file: CredentialsFile): (r: Result<Store, LoadError>)
    ensures r.Failure? <==> file.Malformed?
    ensures r.Success? ==> r.value.persisted.None?
    ensures r.Success? && file.Parsed? && file.list.Some? ==> r.value.credentials == file.list.value
    ensures r.Success? && !(file.Parsed? && file.list.Some?) ==> r.value.credentials == []
  {
    match file
    case Missing => Success(Store([], None))
    case Unreadable => Success(Store([], None))
    case Parsed(list) =>
      (match list
       case None => Success(Store([], None))
       case Some(l) => Success(Store(l, None)))
    case Malformed => Failure(MalformedJson)
  }

  /**
   * `addCredential` followed by `saveCredentials`: appended at the end with no
   * uniqueness check, then the whole list is written.
   */
  function AddCredential(s: Store, c: Credential): (s': Store)
    ensures |s'.credentials| == |s.credentials| + 1
    ensures s'.credentials[..|s.credentials|] == s.credentials
    ensures s'.credentials[|s.credentials|] == c
    ensures multiset(s'.credentials) == multiset(s.credentials) + multiset{c}
    ensures Synced(s')
  {
    var credentials := s.credentials + [c];
    assert credentials[..|s.credentials|] == s.credentials;
    Store(credentials, Some(credentials))
  }

  /** `getCredentials`: the stored list itself, which is the file's list once a write has happened. */
  function GetCredentials(s: Store): (r: seq<Credential>)
    ensures Synced(s) ==> r == s.persisted.value
  {
    s.credentials
  }

  /** A store whose file is in sync loads back, from that file, to the same list. */
  lemma ReloadAfterWrite(s: Store)
    requires Synced(s)
    ensures LoadCredentials(Parsed(s.persisted)).Success?
    ensures GetCredentials(LoadCredentials(Parsed(s.persisted)).value) == GetCredentials(s)
  {
  }

  function AddAll(s: Store, cs: seq<Credential>): Store
    decreases |cs|
  {
    if |cs| == 0 then s else AddCredential(AddAll(s, cs[..|cs| - 1]), cs[|cs| - 1])
  }

  /**
   * After a run of additions the list is the loaded list followed by every added
   * credential in the order added, duplicates included, and the file matches.
   */
  lemma {:induction false} AddAllInOrder(s: Store, cs: seq<Credential>)
    ensures GetCredentials(AddAll(s, cs)) == GetCredentials(s) + cs
    ensures |cs| > 0 ==> Synced(AddAll(s, cs))
    decreases |cs|
  {
    if |cs| > 0 {
      AddAllInOrder(s, cs[..|cs| - 1]);
      assert cs == cs[..|cs| - 1] + [cs[|cs| - 1]];
    }
  }

  /** Adding an api id that is already listed is accepted: both entries are kept. */
  lemma DuplicateApiIdKept(s: Store, c: Credential, d: Credential)
    requires c in s.credentials && d.apiId == c.apiId
    ensures c in GetCredentials(AddCredential(s, d)) && d in GetCredentials(AddCredential(s, d))
    ensures |GetCredentials(AddCredential(s, d))| == |GetCredentials(s)| + 1
  {
    var i :| 0 <= i < |s.credentials| && s.credentials[i] == c;
    assert AddCredential(s, d).credentials[i] == c;
  }
}

=== FILE: decimal.dfy ===
/**
 * Java's fixed-width integers and their decimal text form: `Long.toString`
 * (also `String.valueOf(long)`), `Long.parseLong` and `Integer.parseInt`.
 */
module Decimal {
  import opened Wrappers

  const MIN_INT: int := -0x8000_0000
  const MAX_INT: int := 0x7FFF_FFFF
  const MIN_LONG: int := -0x8000_0000_0000_0000
  const MAX_LONG: int := 0x7FFF_FFFF_FFFF_FFFF

  /** Java `int` */
  type Int32 = x: int | -0x8000_0000 <= x <= 0x7FFF_FFFF

  /** Java `long` */
  type Int64 = x: int | -0x8000_0000_0000_0000 <= x <= 0x7FFF_FFFF_FFFF_FFFF

  predicate IsDigit(c: char) {
    '0' <= c <= '9'
  }

  predicate AllDigits(s: string) {
    forall i :: 0 <= i < |s| ==> IsDigit(s[i])
  }

  /** The number a string of ASCII digits denotes, most significant digit first. */
  function DigitsValue(s: string): nat
    requires AllDigits(s)
  {
    if |s| == 0 then 0
    else 10 * DigitsValue(s[..|s| - 1]) + (s[|s| - 1] as int - '0' as int)
  }

  /** The shortest digit string of `n` (no leading zeros). */
  function NatDigits(n: nat): (s: string)
    ensures |s| > 0 && AllDigits(s)
  {
    var last := [('0' as int + n % 10) as char];
    if n < 10 then last else NatDigits(n / 10) + last
  }

  lemma {:induction false} DigitsValueOfNatDigits(n: nat)
    ensures DigitsValue(NatDigits(n)) == n
  {
    if n >= 10 {
      var s := NatDigits(n);
      assert s[..|s| - 1] == NatDigits(n / 10);
      DigitsValueOfNatDigits(n / 10);
    }
  }

  /** `Long.toString(x)`: an optional minus sign followed by the digits of |x|. */
  function ToDecimal(x: int): (s: string)
    ensures |s| > 0
    ensures s[0] == '-' <==> x < 0
    ensures x < 0 ==> |s| > 1 && AllDigits(s[1..])
    ensures x >= 0 ==> AllDigits(s)
  {
    if x < 0 then "-" + NatDigits(-x) else NatDigits(x)
  }

  /**
   * `Integer.parseInt` / `Long.parseLong` with the result range [lo, hi]:
   * an optional `+` or `-` sign and at least one ASCII digit; anything else,
   * or a value outside the range, is a NumberFormatException (None).
   */
  function ParseInteger(s: string, lo: int, hi: int): (r: Option<int>)
    ensures r.Some? ==> lo <= r.value <= hi
    ensures r.Some? ==> |s| > 0 && (IsDigit(s[0]) || s[0] == '-' || s[0] == '+')
  {
    if |s| == 0 then None
    else
      var signed := s[0] == '-' || s[0] == '+';
      var digits := if signed then s[1..] else s;
      if |digits| == 0 || !AllDigits(digits) then None
      else
        var v: int := if s[0] == '-' then 0 - DigitsValue(digits) as int else DigitsValue(digits);
        if lo <= v <= hi then Some(v) else None
  }

  function ParseLong(s: string): (r: Option<Int64>)
    ensures r.Some? <==> ParseInteger(s, MIN_LONG, MAX_LONG).Some?
    ensures r.Some? ==> r.value == ParseInteger(s, MIN_LONG, MAX_LONG).value
  {
    match ParseInteger(s, MIN_LONG, MAX_LONG)
    case None => None
    case Some(v) => Some(v)
  }

  function ParseInt(s: string): (r: Option<Int32>)
    ensures r.Some? <==> ParseInteger(s, MIN_INT, MAX_INT).Some?
    ensures r.Some? ==> r.value == ParseInteger(s, MIN_INT, MAX_INT).value
  {
    match ParseInteger(s, MIN_INT, MAX_INT)
    case None => None
    case Some(v) => Some(v)
  }

  /** Parsing reads back exactly what `Long.toString` wrote, for any range holding the value. */
  lemma ParseToDecimal(x: int, lo: int, hi: int)
    requires lo <= x <= hi
    ensures ParseInteger(ToDecimal(x), lo, hi) == Some(x)
  {
    var s := ToDecimal(x);
    if x < 0 {
      assert s[1..] == NatDigits(-x);
      DigitsValueOfNatDigits(-x);
    } else {
      assert IsDigit(s[0]);
      DigitsValueOfNatDigits(x);
    }
  }

  lemma ParseLongToDecimal(x: Int64)
    ensures ParseLong(ToDecimal(x)) == Some(x)
  {
    ParseToDecimal(x, MIN_LONG, MAX_LONG);
  }

  lemma ParseIntToDecimal(x: Int32)
    ensures ParseInt(ToDecimal(x)) == Some(x)
  {
    ParseToDecimal(x, MIN_INT, MAX_INT);
  }

  /** Distinct numbers have distinct decimal forms. */
  lemma ToDecimalInjective(x: int, y: int)
    ensures ToDecimal(x) == ToDecimal(y) ==> x == y
  {
    var lo := if x < y then x else y;
    var hi := if x < y then y else x;
    ParseToDecimal(x, lo, hi);
    ParseToDecimal(y, lo, hi);
  }
}

=== FILE: java_text.dfy ===
/**
 * The handful of `java.lang.String` operations the relay core relies on:
 * `startsWith`, `replaceFirst` with a literal pattern, `trim`,
 * `split("\\s+")` and `String.format` restricted to `%s` and `%%`.
 */
module JavaText {
  import opened Wrappers

  /** A character of the regex class `\s`: space, tab, newline, vertical tab, form feed, carriage return. */
  predicate IsRegexSpace(c: char) {
    c == ' ' || c == '\t' || c == '\n' || c as int == 11 || c as int == 12 || c == '\r'
  }

  /** A character `String.trim` removes: any code point up to U+0020. */
  predicate IsTrimmed(c: char) {
    c as int <= 32
  }

  predicate StartsWith(s: string, prefix: string) {
    |prefix| <= |s| && s[..|prefix|] == prefix
  }

  predicate OccursAt(s: string, pat: string, i: int) {
    0 <= i && i + |pat| <= |s| && s[i..i + |pat|] == pat
  }

  /** `s.indexOf(pat)`: the first position where `pat` occurs. */
  function IndexOf(s: string, pat: string): (r: Option<nat>)
    ensures r.Some? ==> OccursAt(s, pat, r.value)
    ensures r.Some? ==> forall j :: 0 <= j < r.value ==> !OccursAt(s, pat, j)
    ensures r.None? ==> forall j :: 0 <= j ==> !OccursAt(s, pat, j)
    decreases |s|
  {
    if |s| < |pat| then None
    else if s[..|pat|] == pat then Some(0)
    else
      match IndexOf(s[1..], pat)
      case None =>
        assert forall j :: 1 <= j ==> OccursAt(s, pat, j) ==> OccursAt(s[1..], pat, j - 1);
        None
      case Some(i) =>
        assert OccursAt(s[1..], pat, i) ==> OccursAt(s, pat, i + 1);
        assert forall j :: 1 <= j < i + 1 ==> OccursAt(s, pat, j) ==> OccursAt(s[1..], pat, j - 1);
        Some(i + 1)
  }

  /** `s.replaceFirst(pat, rep)` for a pattern without regex metacharacters. */
  function ReplaceFirst(s: string, pat: string, rep: string): (r: string)
    ensures IndexOf(s, pat).None? ==> r == s
    ensures IndexOf(s, pat).Some? ==>
      var i := IndexOf(s, pat).value; r == s[..i] + rep + s[i + |pat|..]
  {
    match IndexOf(s, pat)
    case None => s
    case Some(i) => s[..i] + rep + s[i + |pat|..]
  }

  /** When `s` starts with a non-empty `pat`, replacing the first occurrence by "" drops that prefix. */
  lemma ReplaceFirstOfPrefix(s: string, pat: string)
    requires |pat| > 0 && StartsWith(s, pat)
    ensures ReplaceFirst(s, pat, "") == s[|pat|..]
  {
    assert OccursAt(s, pat, 0);
  }

  function TrimStart(s: string): (r: string)
    ensures |r| <= |s| && r == s[|s| - |r|..]
    ensures |r| > 0 ==> !IsTrimmed(r[0])
    ensures forall i :: 0 <= i < |s| - |r| ==> IsTrimmed(s[i])
  {
    if |s| > 0 && IsTrimmed(s[0]) then TrimStart(s[1..]) else s
  }

  function TrimEnd(s: string): (r: string)
    ensures |r| <= |s| && r == s[..|r|]
    ensures |r| > 0 ==> !IsTrimmed(r[|r| - 1])
    ensures forall i :: |r| <= i < |s| ==> IsTrimmed(s[i])
  {
    if |s| > 0 && IsTrimmed(s[|s| - 1]) then TrimEnd(s[..|s| - 1]) else s
  }

  /** `s.trim()`: the longest substring with no character up to U+0020 at either end. */
  function Trim(s: string): (r: string)
    ensures |r| > 0 ==> !IsTrimmed(r[0]) && !IsTrimmed(r[|r| - 1])
  {
    TrimEnd(TrimStart(s))
  }

  /** Trailing trim of `x + t`, when `x` ends in a kept character, only touches `t`. */
  lemma {:induction false} TrimEndAppend(x: string, t: string)
    requires |x| > 0 && !IsTrimmed(x[|x| - 1])
    ensures TrimEnd(x + t) == x + TrimEnd(t)
    decreases |t|
  {
    if |t| > 0 && IsTrimmed(t[|t| - 1]) {
      assert (x + t)[..|x + t| - 1] == x + t[..|t| - 1];
      TrimEndAppend(x, t[..|t| - 1]);
    } else if |t| == 0 {
      assert x + t == x;
    }
  }

  /** The length of the run of non-`\s` characters `s` starts with. */
  function TokenLength(s: string): (n: nat)
    ensures n <= |s|
    ensures forall i :: 0 <= i < n ==> !IsRegexSpace(s[i])
    ensures n < |s| ==> IsRegexSpace(s[n])
  {
    if |s| == 0 || IsRegexSpace(s[0]) then 0 else 1 + TokenLength(s[1..])
  }

  /** `s` consists of `\s` characters only (the empty string included). */
  predicate AllSpace(s: string) {
    forall i :: 0 <= i < |s| ==> IsRegexSpace(s[i])
  }

  /** A non-empty run of non-`\s` characters. */
  predicate IsToken(s: string) {
    |s| > 0 && forall i :: 0 <= i < |s| ==> !IsRegexSpace(s[i])
  }

  /** The maximal runs of non-`\s` characters, left to right. */
  function Words(s: string): (ws: seq<string>)
    ensures forall k :: 0 <= k < |ws| ==> |ws[k]| > 0
    decreases |s|
  {
    if |s| == 0 then []
    else if IsRegexSpace(s[0]) then Words(s[1..])
    else
      var n := TokenLength(s);
      [s[..n]] + Words(s[n..])
  }

  /**
   * Splitting at a whitespace boundary splits the words: the words of `a + b`
   * are those of `a` followed by those of `b` when `a` ends or `b` starts with
   * whitespace. With `WordsEmptyIffAllSpace` and `WordsHaveNoSpace` this fixes
   * `Words` completely.
   */
  lemma {:induction false} WordsAppend(a: string, b: string)
    requires |a| == 0 || |b| == 0 || IsRegexSpace(a[|a| - 1]) || IsRegexSpace(b[0])
    ensures Words(a + b) == Words(a) + Words(b)
    decreases |a|, 1
  {
    if |a| == 0 {
      assert a + b == b;
    } else if |b| == 0 {
      assert a + b == a;
    } else if IsRegexSpace(a[0]) {
      assert (a + b)[1..] == a[1..] + b;
      WordsAppend(a[1..], b);
    } else if IsToken(a) {
      WordsAppendWord(a, b);
    } else {
      WordsAppendToken(a, b);
    }
  }

  /** A single token is its only word. */
  lemma WordsOfToken(a: string)
    requires IsToken(a)
    ensures Words(a) == [a]
  {
    assert a + [] == a;
    WordsCons(a, []);
  }

  /** `WordsAppend` where `a` is a single token. */
  lemma WordsAppendWord(a: string, b: string)
    requires IsToken(a) && (|b| == 0 || IsRegexSpace(b[0]))
    ensures Words(a + b) == Words(a) + Words(b)
  {
    WordsOfToken(a);
    WordsCons(a, b);
  }

  /** Text that starts with a non-`\s` character is its first token followed by a `\s`-led or empty rest. */
  lemma FirstToken(a: string)
    requires |a| > 0 && !IsRegexSpace(a[0])
    ensures 0 < TokenLength(a) <= |a|
    ensures a == a[..TokenLength(a)] + a[TokenLength(a)..]
    ensures IsToken(a[..TokenLength(a)])
    ensures TokenLength(a) < |a| ==> IsRegexSpace(a[TokenLength(a)..][0])
    ensures TokenLength(a) == |a| ==> !IsRegexSpace(a[|a| - 1])
  {
  }

  /** The first token of `a`, when more follows it in `a`, is also the first word of `a + b`. */
  lemma WordsHeadOfAppend(a: string, b: string)
    requires |a| > 0 && !IsRegexSpace(a[0]) && !IsToken(a)
    ensures TokenLength(a) < |a|
    ensures Words(a + b) == [a[..TokenLength(a)]] + Words(a[TokenLength(a)..] + b)
  {
    FirstToken(a);
    var w, rest := a[..TokenLength(a)], a[TokenLength(a)..];
    assert a + b == w + (rest + b);
    assert (rest + b)[0] == rest[0];
    WordsCons(w, rest + b);
  }

  /** `WordsAppend` where `a` starts with a token and goes on past it. */
  lemma {:induction false} WordsAppendToken(a: string, b: string)
    requires |a| > 0 && !IsRegexSpace(a[0]) && !IsToken(a) && |b| > 0
    requires IsRegexSpace(a[|a| - 1]) || IsRegexSpace(b[0])
    ensures Words(a + b) == Words(a) + Words(b)
    decreases |a|, 0
  {
    WordsHeadOfAppend(a, b);
    var n := TokenLength(a);
    WordsAppend(a[n..], b);
    assert [a[..n]] + (Words(a[n..]) + Words(b)) == ([a[..n]] + Words(a[n..])) + Words(b);
    assert Words(a) == [a[..n]] + Words(a[n..]);
  }

  /** There are no words exactly when the text is all whitespace. */
  lemma {:induction false} WordsEmptyIffAllSpace(s: string)
    ensures |Words(s)| == 0 <==> AllSpace(s)
    decreases |s|
  {
    if |s| > 0 && IsRegexSpace(s[0]) {
      WordsEmptyIffAllSpace(s[1..]);
      if AllSpace(s[1..]) {
        forall i | 0 <= i < |s|
          ensures IsRegexSpace(s[i])
        {
          if i > 0 {
            assert s[i] == s[1..][i - 1];
          }
        }
      }
    }
  }

  /** No word contains whitespace. */
  lemma {:induction false} WordsHaveNoSpace(s: string)
    ensures forall k, i :: 0 <= k < |Words(s)| && 0 <= i < |Words(s)[k]| ==> !IsRegexSpace(Words(s)[k][i])
    decreases |s|
  {
    if |s| == 0 {
    } else if IsRegexSpace(s[0]) {
      WordsHaveNoSpace(s[1..]);
    } else {
      var n := TokenLength(s);
      WordsHaveNoSpace(s[n..]);
      assert Words(s) == [s[..n]] + Words(s[n..]);
    }
  }

  /**
   * `s.split("\\s+")`: an input with no match comes back whole (so "" gives [""]),
   * a match at position 0 contributes a leading "", and trailing empty strings are removed.
   */
  function Split(s: string): (r: seq<string>)
    ensures |s| == 0 ==> r == [""]
    ensures |s| > 0 && AllSpace(s) ==> r == []
    ensures |s| > 0 && IsRegexSpace(s[0]) && !AllSpace(s) ==> r == [""] + Words(s) && |r| >= 2
    ensures |s| > 0 && !IsRegexSpace(s[0]) ==> r == Words(s) && |r| >= 1
  {
    WordsEmptyIffAllSpace(s);
    if |s| == 0 then [""]
    else if Words(s) == [] then []
    else if IsRegexSpace(s[0]) then [""] + Words(s)
    else Words(s)
  }

  lemma {:induction false} TokenLengthOfWord(w: string, rest: string)
    requires forall i :: 0 <= i < |w| ==> !IsRegexSpace(w[i])
    requires |rest| == 0 || IsRegexSpace(rest[0])
    ensures TokenLength(w + rest) == |w|
    decreases |w|
  {
    if |w| > 0 {
      assert (w + rest)[1..] == w[1..] + rest;
      TokenLengthOfWord(w[1..], rest);
    } else {
      assert w + rest == rest;
    }
  }

  /** A word followed by nothing or by a separator is the first token. */
  lemma WordsCons(w: string, rest: string)
    requires |w| > 0 && forall i :: 0 <= i < |w| ==> !IsRegexSpace(w[i])
    requires |rest| == 0 || IsRegexSpace(rest[0])
    ensures Words(w + rest) == [w] + Words(rest)
  {
    TokenLengthOfWord(w, rest);
    assert (w + rest)[..|w|] == w;
    assert (w + rest)[|w|..] == rest;
  }

  /** A leading separator contributes no token. */
  lemma WordsSkipSpace(c: char, rest: string)
    requires IsRegexSpace(c)
    ensures Words([c] + rest) == Words(rest)
  {
    assert ([c] + rest)[1..] == rest;
  }

  /**
   * `String.format(fmt, args)` for the conversions `%s` and `%%`: each `%s`
   * consumes the next argument, arguments left over are ignored, a missing
   * argument or any other conversion is an exception (None).
   */
  function Format(fmt: string, args: seq<string>): (r: Option<string>)
    decreases |fmt|
  {
    if |fmt| == 0 then Some("")
    else if fmt[0] != '%' then
      match Format(fmt[1..], args)
      case None => None
      case Some(rest) => Some([fmt[0]] + rest)
    else if |fmt| >= 2 && fmt[1] == '%' then
      match Format(fmt[2..], args)
      case None => None
      case Some(rest) => Some("%" + rest)
    else if |fmt| >= 2 && fmt[1] == 's' && |args| > 0 then
      match Format(fmt[2..], args[1..])
      case None => None
      case Some(rest) => Some(args[0] + rest)
    else None
  }

  /** Text without `%` is copied through unchanged, whatever the arguments. */
  lemma {:induction false} FormatLiteral(lit: string, rest: string, args: seq<string>)
    requires forall i :: 0 <= i < |lit| ==> lit[i] != '%'
    ensures Format(lit + rest, args).Some? == Format(rest, args).Some?
    ensures Format(rest, args).Some? ==> Format(lit + rest, args).value == lit + Format(rest, args).value
    decreases |lit|
  {
    if |lit| > 0 {
      assert (lit + rest)[1..] == lit[1..] + rest;
      FormatLiteral(lit[1..], rest, args);
      if Format(rest, args).Some? {
        assert lit + Format(rest, args).value == [lit[0]] + (lit[1..] + Format(rest, args).value);
      }
    } else {
      assert lit + rest == rest;
    }
  }

  /** A `%s` substitutes the first argument and formats the rest with the remaining ones. */
  lemma FormatArgument(rest: string, a: string, args: seq<string>)
    ensures Format("%s" + rest, [a] + args).Some? == Format(rest, args).Some?
    ensures Format(rest, args).Some? ==> Format("%s" + rest, [a] + args).value == a + Format(rest, args).value
  {
    assert ("%s" + rest)[2..] == rest;
    assert ([a] + args)[1..] == args;
  }
}

=== FILE: message_converter.dfy ===
/**
 * Forward conversion: a TDLib message becomes the Bots API send method that
 * relays it to the operator. Media are first downloaded through TDLib and
 * copied to a temporary file; a failure of either step is thrown to the caller.
 */
module MessageConverter {
  import opened Wrappers
  import opened Decimal
  import Td = TdApi
  import opened BotApi

  const UNSUPPORTED: string := "Неподдерживаемый тип сообщения."
  const DOWNLOAD_FAILED: string := "Ошибка при скачивании файла"
  const COPY_FAILED: string := "Ошибка копирования файла во временную директорию"

  /** TDLib's `DownloadFile`: the local path if the download completes within 30 seconds, else None. */
  type Fetcher = Int32 -> Option<string>

  /** Copying a downloaded file to a fresh temporary file named after the file id: its path, or None on an IOException. */
  type Copier = (string, Int32) -> Option<string>

  /** Exceptions that escape the converter. */
  datatype ConvertError =
    | DownloadFailed(message: string)
    | NoPhotoSizes   // indexing the last size of an empty size array

  /** `downloadFileSync`: wait for the download, then copy it; each failure has its own message. */
  function DownloadFileSync(fetch: Fetcher, copy: Copier, fileId: Int32): (r: Result<string, string>)
    ensures r.Success? <==> fetch(fileId).Some? && copy(fetch(fileId).value, fileId).Some?
    ensures r.Success? ==> r.value == copy(fetch(fileId).value, fileId).value
    ensures r.Failure? && fetch(fileId).None? ==> r.error == DOWNLOAD_FAILED
    ensures r.Failure? && fetch(fileId).Some? ==> r.error == COPY_FAILED
  {
    match fetch(fileId)
    case None => Failure(DOWNLOAD_FAILED)
    case Some(local) =>
      match copy(local, fileId)
      case None => Failure(COPY_FAILED)
      case Some(temp) => Success(temp)
  }

  predicate IsMedia(c: Td.MessageContent) {
    c.MessagePhoto? || c.MessageVoiceNote? || c.MessageSticker? || c.MessageAnimation?
  }

  /** The file a media content is relayed with: for a photo, the last (largest) size. */
  function MediaFile(c: Td.MessageContent): Option<Int32>
    requires IsMedia(c)
  {
    match c
    case MessagePhoto(sizes) => if |sizes| == 0 then None else Some(sizes[|sizes| - 1].fileId)
    case MessageVoiceNote(f) => Some(f)
    case MessageSticker(f) => Some(f)
    case MessageAnimation(f) => Some(f)
  }

  /** Each content kind has its own send method; text and every other kind go out as a text message. */
  predicate SendsAs(c: Td.MessageContent, m: Method) {
    match c
    case MessageText(_) => m.SendMessage?
    case MessagePhoto(_) => m.SendPhoto?
    case MessageVoiceNote(_) => m.SendVoice?
    case MessageSticker(_) => m.SendSticker?
    case MessageAnimation(_) => m.SendAnimation?
    case OtherContent(_) => m.SendMessage?
  }

  function ChatIdOf(m: Method): string
    requires !m.OtherMethod?
  {
    match m
    case SendMessage(chat, _) => chat
    case SendPhoto(chat, _) => chat
    case SendVoice(chat, _) => chat
    case SendSticker(chat, _) => chat
    case SendAnimation(chat, _) => chat
  }

  /** The local file a media send method uploads. */
  function FileOf(m: Method): string
    requires m.SendPhoto? || m.SendVoice? || m.SendSticker? || m.SendAnimation?
  {
    match m
    case SendPhoto(_, f) => f
    case SendVoice(_, f) => f
    case SendSticker(_, f) => f
    case SendAnimation(_, f) => f
  }

  /** `convertTdlightMessage(client, message)`. */
  function ConvertTdlightMessage(fetch: Fetcher, copy: Copier, message: Td.Message): (r: Result<Method, ConvertError>)
    ensures r.Success? ==> !r.value.OtherMethod? && ChatIdOf(r.value) == ToDecimal(message.chatId)
    ensures r.Success? ==> SendsAs(message.content, r.value)
    ensures message.content.MessageText? ==> r.Success? && r.value.text == message.content.text
    ensures message.content.OtherContent? ==> r.Success? && r.value.text == UNSUPPORTED
    ensures IsMedia(message.content) ==>
      (r.Success? <==> MediaFile(message.content).Some? && DownloadFileSync(fetch, copy, MediaFile(message.content).value).Success?)
    ensures IsMedia(message.content) && r.Success? ==>
      FileOf(r.value) == DownloadFileSync(fetch, copy, MediaFile(message.content).value).value
    ensures IsMedia(message.content) && r.Failure? ==>
      r.error == (if MediaFile(message.content).None? then NoPhotoSizes
                  else DownloadFailed(DownloadFileSync(fetch, copy, MediaFile(message.content).value).error))
  {
    var chatId := ToDecimal(message.chatId);
    match message.content
    case MessageText(text) => Success(SendMessage(chatId, text))
    case MessagePhoto(sizes) =>
      if |sizes| == 0 then Failure(NoPhotoSizes)
      else
        (match DownloadFileSync(fetch, copy, sizes[|sizes| - 1].fileId)
         case Failure(e) => Failure(DownloadFailed(e))
         case Success(path) => Success(SendPhoto(chatId, path)))
    case MessageVoiceNote(f) =>
      (match DownloadFileSync(fetch, copy, f)
       case Failure(e) => Failure(DownloadFailed(e))
       case Success(path) => Success(SendVoice(chatId, path)))
    case MessageSticker(f) =>
      (match DownloadFileSync(fetch, copy, f)
       case Failure(e) => Failure(DownloadFailed(e))
       case Success(path) => Success(SendSticker(chatId, path)))
    case MessageAnimation(f) =>
      (match DownloadFileSync(fetch, copy, f)
       case Failure(e) => Failure(DownloadFailed(e))
       case Success(path) => Success(SendAnimation(chatId, path)))
    case OtherContent(_) => Success(SendMessage(chatId, UNSUPPORTED))
  }

  /** The chat id string of every relayed method reads back as the source chat id. */
  lemma ChatIdReadsBack(fetch: Fetcher, copy: Copier, message: Td.Message)
    requires ConvertTdlightMessage(fetch, copy, message).Success?
    ensures ParseLong(ChatIdOf(ConvertTdlightMessage(fetch, copy, message).value)) == Some(message.chatId)
  {
    ParseLongToDecimal(message.chatId);
  }
}

=== FILE: message_mapper.dfy ===
/**
 * The correlation store: notification id -> (account api id, source chat id).
 * Every put and remove rewrites the whole table as a JSON object whose keys
 * are the decimal notification ids and whose values are two-element lists;
 * loading reads that object back leniently.
 */
module MessageMapper {
  import opened Wrappers
  import opened Decimal

  /** The `SimpleEntry(userBotId, chatId)` a notification id is bound to. */
  datatype Binding = Binding(apiId: Int64, chatId: Int64)

  /** The `Map<String, List<Long>>` handed to Gson when the table is written. */
  type JsonImage = map<string, seq<Int64>>

  /** The members of the JSON object Gson reads back, in document order. */
  type JsonEntries = seq<(string, seq<Int64>)>

  /**
   * The in-memory table and the image last written to the file
   * (None until the first write).
   */
  datatype Mapper = Mapper(mapping: map<Int64, Binding>, persisted: Option<JsonImage>)

  /** What opening and parsing the table file yields; `Document(None)` is a JSON null or an empty file. */
  datatype MapperFile =
    | Missing
    | Unreadable
    | Document(json: Option<JsonEntries>)
    | Malformed

  /** Exceptions that escape loading: none of them is an IOException, so none is caught. */
  datatype LoadError = NullDocument | BadKey(key: string) | MalformedJson

  /** The JSON image of a table: `decimal(id) -> [apiId, chatId]` for every entry. */
  function Encode(mapping: map<Int64, Binding>): (j: JsonImage)
    ensures forall k :: k in mapping ==>
      ToDecimal(k) in j && j[ToDecimal(k)] == [mapping[k].apiId, mapping[k].chatId]
    ensures forall key :: key in j ==> exists k :: k in mapping && ToDecimal(k) == key
  {
    assert forall x: Int64, y: Int64 :: ToDecimal(x) == ToDecimal(y) ==> x == y by {
      forall x: Int64, y: Int64 { ToDecimalInjective(x, y); }
    }
    map k | k in mapping :: ToDecimal(k) := [mapping[k].apiId, mapping[k].chatId]
  }

  /** The file holds exactly the encoding of the in-memory table. */
  predicate Synced(m: Mapper) {
    m.persisted == Some(Encode(m.mapping))
  }

  /** `getMapping`: the binding of `id`, or null when there is none. */
  function GetMapping(m: Mapper, id: Int64): (r: Option<Binding>)
    ensures r.Some? <==> id in m.mapping
    ensures r.Some? ==> r.value == m.mapping[id]
  {
    if id in m.mapping then Some(m.mapping[id]) else None
  }

  /** `putMapping` followed by `saveToFile`. */
  function PutMapping(m: Mapper, id: Int64, apiId: Int64, chatId: Int64): (m': Mapper)
    ensures GetMapping(m', id) == Some(Binding(apiId, chatId))
    ensures forall k :: k != id ==> GetMapping(m', k) == GetMapping(m, k)
    ensures m'.mapping.Keys == m.mapping.Keys + {id}
    ensures Synced(m')
  {
    var mapping := m.mapping[id := Binding(apiId, chatId)];
    Mapper(mapping, Some(Encode(mapping)))
  }

  /** `removeMapping` followed by `saveToFile`. */
  function RemoveMapping(m: Mapper, id: Int64): (m': Mapper)
    ensures GetMapping(m', id) == None
    ensures forall k :: k != id ==> GetMapping(m', k) == GetMapping(m, k)
    ensures m'.mapping.Keys == m.mapping.Keys - {id}
    ensures Synced(m')
  {
    var mapping := m.mapping - {id};
    Mapper(mapping, Some(Encode(mapping)))
  }

  lemma UpdateTwice(mapping: map<Int64, Binding>, id: Int64, b1: Binding, b2: Binding)
    ensures mapping[id := b1][id := b2] == mapping[id := b2]
  {
  }

  /** Writing the same key twice leaves only the second binding: last write wins. */
  lemma LastWriteWins(m: Mapper, id: Int64, a1: Int64, c1: Int64, a2: Int64, c2: Int64)
    ensures PutMapping(PutMapping(m, id, a1, c1), id, a2, c2) == PutMapping(m, id, a2, c2)
  {
    UpdateTwice(m.mapping, id, Binding(a1, c1), Binding(a2, c2));
  }

  /** One call on the store. */
  datatype Op = Put(id: Int64, apiId: Int64, chatId: Int64) | Remove(id: Int64)

  function Apply(m: Mapper, ops: seq<Op>): Mapper
    decreases |ops|
  {
    if |ops| == 0 then m
    else
      var prior := Apply(m, ops[..|ops| - 1]);
      match ops[|ops| - 1]
      case Put(id, a, c) => PutMapping(prior, id, a, c)
      case Remove(id) => RemoveMapping(prior, id)
  }

  /** Reference semantics of a history: the last call naming `id` decides, else the starting table. */
  function LastWrite(m: Mapper, ops: seq<Op>, id: Int64): Option<Binding>
    decreases |ops|
  {
    if |ops| == 0 then GetMapping(m, id)
    else
      match ops[|ops| - 1]
      case Put(k, a, c) => if k == id then Some(Binding(a, c)) else LastWrite(m, ops[..|ops| - 1], id)
      case Remove(k) => if k == id then None else LastWrite(m, ops[..|ops| - 1], id)
  }

  /**
   * After any sequence of puts and removes, a lookup returns what the last call
   * naming that id wrote; an id no call named keeps its original state, and
   * every non-empty history leaves the file in step with memory.
   */
  lemma {:induction false} ApplyHistory(m: Mapper, ops: seq<Op>, id: Int64)
    ensures GetMapping(Apply(m, ops), id) == LastWrite(m, ops, id)
    ensures |ops| > 0 ==> Synced(Apply(m, ops))
    decreases |ops|
  {
    if |ops| > 0 {
      ApplyHistory(m, ops[..|ops| - 1], id);
    }
  }

  predicate KeysParse(es: JsonEntries) {
    forall i :: 0 <= i < |es| ==> ParseLong(es[i].0).Some?
  }

  /** Some member of `es` with a two-element list has a key that parses to `k`. */
  predicate PairFor(es: JsonEntries, k: Int64) {
    exists i :: 0 <= i < |es| && ParseLong(es[i].0) == Some(k) && |es[i].1| == 2
  }

  /**
   * The loop of `deserializeMap`: every key is parsed with `Long.parseLong`
   * (the first bad key in document order throws), members whose list does not
   * have exactly two elements are skipped, and a later member overwrites an
   * earlier one with the same number.
   */
  function DecodeEntries(es: JsonEntries): (r: Result<map<Int64, Binding>, LoadError>)
    ensures r.Success? <==> KeysParse(es)
    ensures r.Failure? ==> exists i :: 0 <= i < |es| && r.error == BadKey(es[i].0) && ParseLong(es[i].0).None?
    decreases |es|
  {
    if |es| == 0 then Success(map[])
    else
      var prefix := es[..|es| - 1];
      var (key, values) := es[|es| - 1];
      assert forall i :: 0 <= i < |prefix| ==> prefix[i] == es[i];
      match DecodeEntries(prefix)
      case Failure(e) => Failure(e)
      case Success(acc) =>
        match ParseLong(key)
        case None => Failure(BadKey(key))
        case Some(k) =>
          if |values| == 2 then Success(acc[k := Binding(values[0], values[1])]) else Success(acc)
  }

  /** A successful decode holds exactly the numbers of the two-element members. */
  lemma {:induction false} DecodedKeys(es: JsonEntries)
    requires KeysParse(es)
    ensures forall k :: k in DecodeEntries(es).value <==> PairFor(es, k)
    decreases |es|
  {
    if |es| > 0 {
      var prefix := es[..|es| - 1];
      assert forall i :: 0 <= i < |prefix| ==> prefix[i] == es[i];
      DecodedKeys(prefix);
      forall k: Int64 ensures PairFor(es, k) <==> PairFor(prefix, k) || (ParseLong(es[|es| - 1].0) == Some(k) && |es[|es| - 1].1| == 2) {
        if PairFor(es, k) {
          var i :| 0 <= i < |es| && ParseLong(es[i].0) == Some(k) && |es[i].1| == 2;
          if i < |prefix| { assert prefix[i] == es[i]; }
        }
      }
    }
  }

  /** `deserializeMap`: a null document throws when its entry set is taken. */
  function DeserializeMap(json: Option<JsonEntries>): (r: Result<map<Int64, Binding>, LoadError>)
    ensures json.None? ==> r == Failure(NullDocument)
    ensures json.Some? ==> (r.Success? <==> KeysParse(json.value))
  {
    match json
    case None => Failure(NullDocument)
    case Some(es) => DecodeEntries(es)
  }

  /** `loadFromFile`: a missing or unreadable file gives an empty table; parse errors escape. */
  function LoadFromFile(file: MapperFile): (r: Result<map<Int64, Binding>, LoadError>)
    ensures file.Missing? || file.Unreadable? ==> r == Success(map[])
    ensures file.Malformed? ==> r == Failure(MalformedJson)
    ensures file.Document? && file.json.None? ==> r == Failure(NullDocument)
    ensures file.Document? && file.json.Some? ==> r == DeserializeMap(file.json)
  {
    match file
    case Missing => Success(map[])
    case Unreadable => Success(map[])
    case Malformed => Failure(MalformedJson)
    case Document(json) => DeserializeMap(json)
  }

  /** The `MessageMapper` constructor: load the table; nothing has been written yet. */
  function Open(file: MapperFile): (r: Result<Mapper, LoadError>)
    ensures r.Success? <==> LoadFromFile(file).Success?
    ensures r.Success? ==> r.value.mapping == LoadFromFile(file).value && r.value.persisted.None?
  {
    match LoadFromFile(file)
    case Failure(e) => Failure(e)
    case Success(mapping) => Success(Mapper(mapping, None))
  }

  /** `es` lists the members of `j`, in any order. */
  predicate Lists(es: JsonEntries, j: JsonImage) {
    && (forall i :: 0 <= i < |es| ==> es[i].0 in j && j[es[i].0] == es[i].1)
    && (forall key :: key in j ==> exists i :: 0 <= i < |es| && es[i].0 == key)
  }

  predicate Named(es: JsonEntries, k: Int64) {
    exists i :: 0 <= i < |es| && es[i].0 == ToDecimal(k)
  }

  /** Decoding any listing of members of an encoded table yields the entries it names. */
  lemma {:induction false} DecodeListed(m: map<Int64, Binding>, es: JsonEntries)
    requires forall i :: 0 <= i < |es| ==> es[i].0 in Encode(m) && Encode(m)[es[i].0] == es[i].1
    ensures DecodeEntries(es).Success?
    ensures DecodedFrom(DecodeEntries(es).value, m, es)
    decreases |es|
  {
    if |es| > 0 {
      var prefix := es[..|es| - 1];
      var (key, values) := es[|es| - 1];
      assert forall i :: 0 <= i < |prefix| ==> prefix[i] == es[i];
      DecodeListed(m, prefix);
      var k0 :| k0 in m && ToDecimal(k0) == key;
      ParseLongToDecimal(k0);
      var acc := DecodeEntries(prefix).value;
      assert values == [m[k0].apiId, m[k0].chatId];
      assert DecodeEntries(es) == Success(acc[k0 := m[k0]]);
      DecodedFromStep(m, es, k0, acc);
    }
  }

  /** `d` holds, with their original bindings, exactly the entries of `m` that `es` names. */
  predicate DecodedFrom(d: map<Int64, Binding>, m: map<Int64, Binding>, es: JsonEntries) {
    && (forall k :: k in d ==> k in m && Named(es, k) && d[k] == m[k])
    && (forall k :: k in m && Named(es, k) ==> k in d)
  }

  lemma DecodedFromStep(m: map<Int64, Binding>, es: JsonEntries, k0: Int64, acc: map<Int64, Binding>)
    requires |es| > 0 && es[|es| - 1].0 == ToDecimal(k0) && k0 in m
    requires DecodedFrom(acc, m, es[..|es| - 1])
    ensures DecodedFrom(acc[k0 := m[k0]], m, es)
  {
    var r := acc[k0 := m[k0]];
    forall k | k in r ensures k in m && Named(es, k) && r[k] == m[k] {
      NamedStep(es, k, k0);
    }
    forall k | k in m && Named(es, k) ensures k in r {
      NamedStep(es, k, k0);
    }
  }

  lemma NamedStep(es: JsonEntries, k: Int64, k0: Int64)
    requires |es| > 0 && es[|es| - 1].0 == ToDecimal(k0)
    ensures Named(es, k) <==> Named(es[..|es| - 1], k) || k == k0
  {
    var prefix := es[..|es| - 1];
    if Named(es, k) {
      var i :| 0 <= i < |es| && es[i].0 == ToDecimal(k);
      if i == |es| - 1 {
        ToDecimalInjective(k, k0);
      } else {
        assert prefix[i] == es[i];
      }
    }
    if Named(prefix, k) {
      var i :| 0 <= i < |prefix| && prefix[i].0 == ToDecimal(k);
      assert es[i] == prefix[i];
    }
    if k == k0 {
      assert es[|es| - 1].0 == ToDecimal(k);
    }
  }

  /** A complete listing of an encoded table names every key of the table. */
  lemma ListsNamesAll(m: map<Int64, Binding>, es: JsonEntries)
    requires Lists(es, Encode(m))
    ensures forall k :: k in m ==> Named(es, k)
  {
    forall k | k in m ensures Named(es, k) {
      assert ToDecimal(k) in Encode(m);
    }
  }

  /** A decode drawn from a listing that names every key of the table is the table. */
  lemma DecodedAll(d: map<Int64, Binding>, m: map<Int64, Binding>, es: JsonEntries)
    requires DecodedFrom(d, m, es)
    requires forall k :: k in m ==> Named(es, k)
    ensures d == m
  {
    assert d.Keys == m.Keys;
  }

  /** Round trip: decoding the encoding of a table, written in any member order, gives the table back. */
  lemma DecodeEncode(m: map<Int64, Binding>, es: JsonEntries)
    requires Lists(es, Encode(m))
    ensures DeserializeMap(Some(es)) == Success(m)
  {
    DecodeListed(m, es);
    ListsNamesAll(m, es);
    DecodedAll(DecodeEntries(es).value, m, es);
  }

  /** A store whose last call was a put or remove reloads, after a restart, to the same table. */
  lemma ReloadAfterWrite(m: Mapper, es: JsonEntries)
    requires Synced(m) && Lists(es, m.persisted.value)
    ensures Open(Document(Some(es))) == Success(Mapper(m.mapping, None))
  {
    DecodeEncode(m.mapping, es);
  }

  /** The members whose list has exactly two elements. */
  function KeepPairs(es: JsonEntries): (r: JsonEntries)
    ensures forall i :: 0 <= i < |r| ==> |r[i].1| == 2
    ensures |r| <= |es|
  {
    if |es| == 0 then []
    else
      var prefix := KeepPairs(es[..|es| - 1]);
      if |es[|es| - 1].1| == 2 then prefix + [es[|es| - 1]] else prefix
  }

  /** Members of the wrong arity are invisible to a successful decode. */
  lemma {:induction false} WrongArityDropped(es: JsonEntries)
    requires KeysParse(es)
    ensures DecodeEntries(KeepPairs(es)) == DecodeEntries(es)
    decreases |es|
  {
    if |es| > 0 {
      var prefix := es[..|es| - 1];
      assert forall i :: 0 <= i < |prefix| ==> prefix[i] == es[i];
      WrongArityDropped(prefix);
      if |es[|es| - 1].1| == 2 {
        var kept := KeepPairs(prefix) + [es[|es| - 1]];
        assert kept[..|kept| - 1] == KeepPairs(prefix);
      }
    }
  }
}

=== FILE: program_flow.dfy ===
/**
 * The relay pipeline and the reply router. The asynchronous chain of the
 * new-message handler is modelled as one decision over already-resolved
 * values: the chat lookup result, a user lookup function, the formatted time
 * and the outcome of the send to the operator.
 */
module ProgramFlow {
  import opened Wrappers
  import opened Decimal
  import opened JavaText
  import Td = TdApi
  import BA = BotApi
  import MM = MessageMapper
  import CS = Credentials
  import MC = MessageConverter
  import RC = ReverseMessageConverter
  import B = Bot

  const CAPTION_FORMAT: string := "New message from %s %s:\n"
  const ADD_CONFIRMATION: string := "Добавление пользователя..."

  /** The running program: correlation store, credential store and one session per api id. */
  datatype Flow = Flow(mapper: MM.Mapper, credentials: CS.Store, sessions: map<Int64, CS.Credential>)

  // ---------------------------------------------------------------- caption

  /**
   * The ` (@name)` part of the caption. Reading the active usernames of a user
   * whose `usernames` object is null throws, which is `None` here.
   */
  function SenderInfo(user: Option<Td.User>): (r: Option<string>)
    ensures r.None? <==> user.Some? && user.value.usernames.None?
    ensures r.Some? && user.Some? && |user.value.usernames.value| != 0 ==>
      r.value == " (@" + user.value.usernames.value[0] + ")"
    ensures r.Some? && (user.None? || |user.value.usernames.value| == 0) ==> r.value == ""
  {
    if user.None? then Some("")
    else if user.value.usernames.None? then None
    else if |user.value.usernames.value| != 0 then Some(" (@" + user.value.usernames.value[0] + ")")
    else Some("")
  }

  /** A `lit %s lit %s lit` format fills in two arguments and ignores any further ones. */
  lemma {:induction false} TwoArgumentFormat(head: string, mid: string, tail: string, a: string, b: string, extra: seq<string>)
    requires forall i :: 0 <= i < |head| ==> head[i] != '%'
    requires forall i :: 0 <= i < |mid| ==> mid[i] != '%'
    requires forall i :: 0 <= i < |tail| ==> tail[i] != '%'
    ensures Format(head + ("%s" + (mid + ("%s" + tail))), [a, b] + extra) == Some(head + a + mid + b + tail)
  {
    FormatLiteral(tail, "", extra);
    assert tail + "" == tail;
    assert Format(tail, extra) == Some(tail);
    FormatArgument(tail, b, extra);
    FormatLiteral(mid, "%s" + tail, [b] + extra);
    assert [a, b] + extra == [a] + ([b] + extra);
    FormatArgument(mid + ("%s" + tail), a, [b] + extra);
    FormatLiteral(head, "%s" + (mid + ("%s" + tail)), [a, b] + extra);
    assert head + (a + (mid + (b + tail))) == head + a + mid + b + tail;
  }

  lemma CaptionFormat(title: string, info: string, time: string)
    ensures Format(CAPTION_FORMAT, [title, info, time]) == Some("New message from " + title + " " + info + ":\n")
  {
    var head, mid, tail := "New message from ", " ", ":\n";
    assert CAPTION_FORMAT == head + ("%s" + (mid + ("%s" + tail)));
    assert [title, info, time] == [title, info] + [time];
    TwoArgumentFormat(head, mid, tail, title, info, [time]);
  }

  /** The caption line put above a relayed message; `None` where building the sender info throws. */
  function Caption(title: string, user: Option<Td.User>, formattedTime: string): (c: Option<string>)
    ensures c.None? <==> user.Some? && user.value.usernames.None?
    ensures user.Some? && user.value.usernames.Some? && |user.value.usernames.value| != 0 ==>
      c == Some("New message from " + title + " " + " (@" + user.value.usernames.value[0] + ")" + ":\n")
    ensures user.None? || (user.value.usernames.Some? && |user.value.usernames.value| == 0) ==>
      c == Some("New message from " + title + " " + ":\n")
  {
    match SenderInfo(user)
    case None => None
    case Some(info) =>
      assert user.Some? && |user.value.usernames.value| != 0 ==>
        "New message from " + title + " " + info + ":\n"
        == "New message from " + title + " " + " (@" + user.value.usernames.value[0] + ")" + ":\n";
      assert info == "" ==> "New message from " + title + " " + info == "New message from " + title + " ";
      Some("New message from " + title + " " + info + ":\n")
  }

  /**
   * Where the sender info exists, the caption is what `String.format` makes of
   * the format string with the title, the sender info and the formatted time:
   * the format has only two `%s`, so the time is dropped.
   */
  lemma CaptionIsFormatted(title: string, user: Option<Td.User>, formattedTime: string)
    requires SenderInfo(user).Some?
    ensures Format(CAPTION_FORMAT, [title, SenderInfo(user).value, formattedTime]) == Caption(title, user, formattedTime)
  {
    CaptionFormat(title, SenderInfo(user).value, formattedTime);
  }

  // ------------------------------------------------------------- enrichment

  predicate IsGroup(chat: Td.Chat) {
    chat.chatType.ChatTypeBasicGroup? || chat.chatType.ChatTypeSupergroup?
  }

  /** The user id `GetUser` is sent for: only a user sender other than the account itself. */
  function UserToLookUp(sender: Td.MessageSender, me: Int64): (r: Option<Int64>)
    ensures r.Some? <==> sender.MessageSenderUser? && sender.userId != me
    ensures r.Some? ==> r.value == sender.userId
  {
    match sender
    case MessageSenderUser(id) => if id != me then Some(id) else None
    case MessageSenderChat(_) => None
  }

  /** `GetUser`: the user, or the error the request completes with. */
  type UserLookup = Int64 -> Result<Td.User, string>

  /** The `{chat, user}` pair the enrichment stage completes with. */
  datatype Enriched = Enriched(chat: Td.Chat, user: Option<Td.User>)

  /** The `thenComposeAsync` stage: None for a group chat, else the chat and the user slot. */
  function Enrich(chat: Result<Td.Chat, string>, sender: Td.MessageSender, me: Int64, getUser: UserLookup)
    : (r: Result<Option<Enriched>, string>)
    ensures chat.Failure? ==> r == Failure(chat.error)
    ensures chat.Success? && IsGroup(chat.value) ==> r == Success(None)
    ensures r.Success? && r.value.None? ==> chat.Success? && IsGroup(chat.value)
    ensures chat.Success? && !IsGroup(chat.value)
            && (UserToLookUp(sender, me).None? || getUser(UserToLookUp(sender, me).value).Success?)
            ==> r.Success? && r.value.Some?
    ensures r.Success? && r.value.Some? ==> chat.Success? && !IsGroup(chat.value) && r.value.value.chat == chat.value
    ensures r.Success? && r.value.Some? ==> (r.value.value.user.Some? <==> UserToLookUp(sender, me).Some?)
    ensures r.Success? && r.value.Some? && r.value.value.user.Some? ==>
      getUser(UserToLookUp(sender, me).value) == Success(r.value.value.user.value)
    ensures r.Failure? && chat.Success? ==>
      UserToLookUp(sender, me).Some? && getUser(UserToLookUp(sender, me).value) == Failure(r.error)
  {
    match chat
    case Failure(e) => Failure(e)
    case Success(c) =>
      if IsGroup(c) then Success(None)
      else
        match UserToLookUp(sender, me)
        case None => Success(Some(Enriched(c, None)))
        case Some(id) =>
          match getUser(id)
          case Failure(e) => Failure(e)
          case Success(u) => Success(Some(Enriched(c, Some(u))))
  }

  /** No user lookup is made for a chat sender or the account's own messages: the result cannot depend on it. */
  lemma NoLookupForSelfOrChat(chat: Result<Td.Chat, string>, sender: Td.MessageSender, me: Int64, g1: UserLookup, g2: UserLookup)
    requires !sender.MessageSenderUser? || sender.userId == me
    ensures Enrich(chat, sender, me, g1) == Enrich(chat, sender, me, g2)
  {
  }

  // ------------------------------------------------------------------ relay

  datatype RelayOutcome =
    | LookupFailed(error: string)   // logged as a warning
    | GroupChat                     // the stage completed with null
    | NullUser                      // the user slot is null: dereferencing it throws inside the completion stage
    | OwnAccount                    // the looked-up user is the account itself
    | NullUsernames                 // the user's `usernames` is null: building the sender info throws
    | SendFailed(error: string)     // the send threw; nothing is recorded or marked read
    | Relayed(caption: string, notificationId: Int32, view: Td.ViewMessages)

  datatype Relay = Relay(outcome: RelayOutcome, mapper: MM.Mapper)

  /** Every condition the new-message handler checks before it sends. */
  predicate ReadyToSend(message: Td.Message, me: Int64, chat: Result<Td.Chat, string>, getUser: UserLookup) {
    && chat.Success? && !IsGroup(chat.value)
    && UserToLookUp(message.senderId, me).Some?
    && getUser(UserToLookUp(message.senderId, me).value).Success?
    && getUser(UserToLookUp(message.senderId, me).value).value.id != me
    && getUser(UserToLookUp(message.senderId, me).value).value.usernames.Some?
  }

  /** Every condition the new-message handler needs to send, record and mark read. */
  predicate RelayConditions(message: Td.Message, me: Int64, chat: Result<Td.Chat, string>, getUser: UserLookup, sent: Result<Int32, string>) {
    ReadyToSend(message, me, chat, getUser) && sent.Success?
  }

  /**
   * The handler registered for account `apiId`. `sent` is the outcome of
   * executing the converted message with the caption: the notification id, or
   * the exception it throws.
   */
  function HandleNewMessage(mapper: MM.Mapper, apiId: Int32, message: Td.Message, me: Int64,
                            chat: Result<Td.Chat, string>, getUser: UserLookup,
                            formattedTime: string, sent: Result<Int32, string>): (r: Relay)
    ensures r.outcome.Relayed? <==> RelayConditions(message, me, chat, getUser, sent)
    ensures r.outcome.Relayed? ==>
      && Some(r.outcome.caption) == Caption(chat.value.title, Some(getUser(message.senderId.userId).value), formattedTime)
      && r.outcome.notificationId == sent.value
      && r.mapper == MM.PutMapping(mapper, sent.value, apiId, message.chatId)
      && r.outcome.view == Td.ViewMessages(message.chatId, [message.id], true)
    ensures !r.outcome.Relayed? ==> r.mapper == mapper
    ensures chat.Success? && IsGroup(chat.value) ==> r.outcome == GroupChat
    ensures chat.Success? && !IsGroup(chat.value) && UserToLookUp(message.senderId, me).None? ==> r.outcome == NullUser
    ensures (&& chat.Success? && !IsGroup(chat.value) && UserToLookUp(message.senderId, me).Some?
             && getUser(message.senderId.userId).Success? && getUser(message.senderId.userId).value.id != me
             && getUser(message.senderId.userId).value.usernames.None?) ==> r.outcome == NullUsernames
    ensures chat.Failure? ==> r.outcome == LookupFailed(chat.error)
    ensures (&& chat.Success? && !IsGroup(chat.value) && UserToLookUp(message.senderId, me).Some?
             && getUser(message.senderId.userId).Failure?)
            ==> r.outcome == LookupFailed(getUser(message.senderId.userId).error)
    ensures (&& chat.Success? && !IsGroup(chat.value) && UserToLookUp(message.senderId, me).Some?
             && getUser(message.senderId.userId).Success? && getUser(message.senderId.userId).value.id == me)
            ==> r.outcome == OwnAccount
    ensures ReadyToSend(message, me, chat, getUser) && sent.Failure? ==> r.outcome == SendFailed(sent.error)
  {
    match Enrich(chat, message.senderId, me, getUser)
    case Failure(e) => Relay(LookupFailed(e), mapper)
    case Success(None) => Relay(GroupChat, mapper)
    case Success(Some(Enriched(c, user))) =>
      if user.None? then Relay(NullUser, mapper)
      else if user.value.id == me then Relay(OwnAccount, mapper)
      else
        match Caption(c.title, user, formattedTime)
        case None => Relay(NullUsernames, mapper)
        case Some(caption) =>
          match sent
          case Failure(e) => Relay(SendFailed(e), mapper)
          case Success(id) =>
            Relay(Relayed(caption, id, Td.ViewMessages(message.chatId, [message.id], true)),
                  MM.PutMapping(mapper, id, apiId, message.chatId))
  }

  // ------------------------------------------------------------ /add command

  /** The tokens `processAddCommand` indexes. */
  function AddArguments(text: string): seq<string> {
    Split(Trim(ReplaceFirst(text, B.ADD_COMMAND, "")))
  }

  /** The exception a malformed command raises, in evaluation order. */
  datatype AddError = MissingArgument(index: nat) | BadApiId(token: string)

  /** `Integer.parseInt(arguments[0])`, then `arguments[1]` and `arguments[2]`; extra tokens are ignored. */
  function ParseArguments(args: seq<string>): (r: Result<CS.Credential, AddError>)
    ensures r.Success? <==> |args| >= 3 && ParseInt(args[0]).Some?
    ensures r.Success? ==> r.value == CS.Credential(ParseInt(args[0]).value, args[1], args[2])
    ensures |args| > 0 && ParseInt(args[0]).None? ==> r == Failure(BadApiId(args[0]))
    ensures |args| == 0 ==> r == Failure(MissingArgument(0))
    ensures 0 < |args| < 3 && ParseInt(args[0]).Some? ==> r == Failure(MissingArgument(|args|))
  {
    if |args| == 0 then Failure(MissingArgument(0))
    else
      match ParseInt(args[0])
      case None => Failure(BadApiId(args[0]))
      case Some(id) =>
        if |args| < 2 then Failure(MissingArgument(1))
        else if |args| < 3 then Failure(MissingArgument(2))
        else Success(CS.Credential(id, args[1], args[2]))
  }

  /**
   * The tokens of a command text: a blank remainder gives the single token "",
   * anything else gives non-empty tokens free of whitespace.
   */
  lemma AddArgumentsAreTokens(text: string)
    ensures |AddArguments(text)| >= 1
    ensures AddArguments(text) == [""] || forall k :: 0 <= k < |AddArguments(text)| ==> IsToken(AddArguments(text)[k])
  {
    var t := Trim(ReplaceFirst(text, B.ADD_COMMAND, ""));
    if |t| > 0 {
      assert !IsRegexSpace(t[0]);
      WordsHaveNoSpace(t);
    }
  }

  /**
   * `processAddCommand`'s parse of the message text: `arguments[0]` is always
   * there to read, and a parsed hash and phone number are whitespace-free tokens.
   */
  function ParseAddCommand(text: string): (r: Result<CS.Credential, AddError>)
    ensures r.Failure? ==> r.error != MissingArgument(0)
    ensures r.Success? ==> IsToken(r.value.apiHash) && IsToken(r.value.phoneNumber)
  {
    AddArgumentsAreTokens(text);
    ParseArguments(AddArguments(text))
  }

  /**
   * The command text always yields at least one token (a blank remainder
   * splits to `[""]`), so `arguments[0]` is always read and the first error a
   * malformed command can raise is in parsing the api id.
   */
  lemma AddArgumentsNeverEmpty(text: string)
    ensures |AddArguments(text)| >= 1
    ensures ParseAddCommand(text) != Failure(MissingArgument(0))
  {
  }

  /** A bare `/add` fails on `Integer.parseInt("")`, before any store or session changes. */
  lemma BareAddCommand(flow: Flow, config: B.Config, starts: SessionStarter)
    ensures ParseAddCommand("/add") == Failure(BadApiId(""))
    ensures ProcessAddCommand(flow, config, "/add", starts) == (flow, [])
  {
    ReplaceFirstOfPrefix("/add", B.ADD_COMMAND);
    assert ReplaceFirst("/add", B.ADD_COMMAND, "") == "";
    assert Trim("") == "";
    assert AddArguments("/add") == [""];
    assert ParseInt("").None?;
  }

  predicate Printable(s: string) {
    forall i :: 0 <= i < |s| ==> !IsTrimmed(s[i])
  }

  lemma DecimalIsOneToken(x: int)
    ensures Printable(ToDecimal(x))
  {
    var d := ToDecimal(x);
    forall i | 0 <= i < |d| ensures !IsTrimmed(d[i]) {
      if x < 0 && i > 0 {
        assert d[1..][i - 1] == d[i];
      }
    }
  }

  lemma PrintableHasNoSpace(s: string)
    requires Printable(s)
    ensures forall i :: 0 <= i < |s| ==> !IsRegexSpace(s[i])
  {
  }

  /** A printable token followed by one space is the first word; the rest is split on its own. */
  lemma WordThenSpace(w: string, rest: string)
    requires |w| > 0 && Printable(w)
    ensures Words(w + (" " + rest)) == [w] + Words(rest)
  {
    PrintableHasNoSpace(w);
    assert " " + rest == [' '] + rest;
    WordsCons(w, " " + rest);
    WordsSkipSpace(' ', rest);
  }

  /** Three single-space-separated printable tokens followed by a space-led rest are its first three words. */
  lemma ThreeWords(x: string, y: string, z: string, t: string)
    requires |x| > 0 && |y| > 0 && |z| > 0 && Printable(x) && Printable(y) && Printable(z)
    requires |t| == 0 || IsRegexSpace(t[0])
    ensures Words(x + (" " + (y + (" " + (z + t))))) == [x, y, z] + Words(t)
  {
    var rest := y + (" " + (z + t));
    var wt := Words(t);
    PrintableHasNoSpace(z);
    WordsCons(z, t);
    WordThenSpace(y, z + t);
    assert Words(rest) == [y] + ([z] + wt);
    WordThenSpace(x, rest);
    assert [x] + ([y] + ([z] + wt)) == [x, y, z] + wt;
  }

  /** `split` of text that starts with a printable token is just its words. */
  lemma SplitOfToken(x: string, rest: string)
    requires |x| > 0 && Printable(x)
    ensures Split(x + rest) == Words(x + rest)
  {
    assert (x + rest)[0] == x[0];
    assert !IsTrimmed(x[0]);
  }

  /** Removing the command prefix and trimming keeps the arguments and a trimmed tail. */
  lemma StripCommand(command: string, core: string, tail: string)
    requires |command| > 0
    requires |core| > 0 && !IsTrimmed(core[0]) && !IsTrimmed(core[|core| - 1])
    ensures Trim(ReplaceFirst(command + (" " + (core + tail)), command, "")) == core + TrimEnd(tail)
  {
    var rest := " " + (core + tail);
    assert StartsWith(command + rest, command);
    ReplaceFirstOfPrefix(command + rest, command);
    assert (command + rest)[|command|..] == rest;
    assert rest[1..] == core + tail;
    assert TrimStart(rest) == core + tail;
    TrimEndAppend(core, tail);
  }

  lemma Regroup(command: string, x: string, y: string, z: string, tail: string, t: string)
    ensures command + " " + x + " " + y + " " + z + tail == command + (" " + ((x + (" " + (y + (" " + z)))) + tail))
    ensures (x + (" " + (y + (" " + z)))) + t == x + (" " + (y + (" " + (z + t))))
  {
  }

  /** The argument tokens of `command x y z tail` for printable tokens x, y and z. */
  lemma CommandArguments(command: string, x: string, y: string, z: string, tail: string)
    requires |command| > 0
    requires |x| > 0 && |y| > 0 && |z| > 0 && Printable(x) && Printable(y) && Printable(z)
    requires |tail| == 0 || IsRegexSpace(tail[0])
    ensures Split(Trim(ReplaceFirst(command + " " + x + " " + y + " " + z + tail, command, "")))
         == [x, y, z] + Words(TrimEnd(tail))
  {
    var core := x + (" " + (y + (" " + z)));
    var t := TrimEnd(tail);
    Regroup(command, x, y, z, tail, t);
    assert core[0] == x[0] && core[|core| - 1] == z[|z| - 1];
    StripCommand(command, core, tail);
    assert |t| == 0 || t[0] == tail[0];
    ThreeWords(x, y, z, t);
    SplitOfToken(x, " " + (y + (" " + (z + t))));
  }

  /**
   * `/add <apiId> <apiHash> <phone>` written with single spaces parses back to
   * exactly that credential, whatever whitespace-separated text follows.
   */
  lemma WellFormedAddCommand(id: Int32, hash: string, phone: string, tail: string)
    requires |hash| > 0 && |phone| > 0 && Printable(hash) && Printable(phone)
    requires |tail| == 0 || IsRegexSpace(tail[0])
    ensures ParseAddCommand(B.ADD_COMMAND + " " + ToDecimal(id) + " " + hash + " " + phone + tail)
         == Success(CS.Credential(id, hash, phone))
  {
    DecimalIsOneToken(id);
    CommandArguments(B.ADD_COMMAND, ToDecimal(id), hash, phone, tail);
    ParseIntToDecimal(id);
  }

  // ------------------------------------------------------------- sessions

  /** Whether `new UserBot(...)` succeeds for a credential (native init, session setup). */
  type SessionStarter = CS.Credential -> bool

  datatype Effect =
    | CredentialSaved(credential: CS.Credential)
    | SessionStarted(credential: CS.Credential)
    | AdminNotified(notice: BA.Method)
    | ReplySent(apiId: Int64, request: Td.SendMessage)
    | CodeDelivered(future: nat, code: Option<string>)

  /** The steps of `processAddCommand` after the parse, for a given parse outcome. */
  function AddParsed(flow: Flow, config: B.Config, parsed: Result<CS.Credential, AddError>, starts: SessionStarter): (r: (Flow, seq<Effect>))
    ensures parsed.Failure? ==> r == (flow, [])
    ensures parsed.Success? ==>
      && r.0.credentials == CS.AddCredential(flow.credentials, parsed.value)
      && r.0.mapper == flow.mapper
      && (starts(parsed.value) ==>
            r.0.sessions == flow.sessions[parsed.value.apiId := parsed.value]
            && r.1 == [CredentialSaved(parsed.value), SessionStarted(parsed.value),
                       AdminNotified(BA.SendMessage(ToDecimal(config.adminId), ADD_CONFIRMATION))])
      && (!starts(parsed.value) ==> r.0.sessions == flow.sessions && r.1 == [CredentialSaved(parsed.value)])
  {
    match parsed
    case Failure(_) => (flow, [])
    case Success(c) =>
      var saved := flow.(credentials := CS.AddCredential(flow.credentials, c));
      if !starts(c) then (saved, [CredentialSaved(c)])
      else
        var notice := B.SendAdminMessage(config, Some(ADD_CONFIRMATION));
        (saved.(sessions := saved.sessions[c.apiId := c]),
         [CredentialSaved(c), SessionStarted(c), AdminNotified(notice.value)])
  }

  /**
   * `processAddCommand`: parse, then save the credential, then start its
   * session, then confirm to the admin. A parse failure throws before
   * anything changes; a session failure throws after the credential is saved.
   */
  function ProcessAddCommand(flow: Flow, config: B.Config, text: string, starts: SessionStarter): (r: (Flow, seq<Effect>))
    ensures ParseAddCommand(text).Failure? ==> r == (flow, [])
    ensures ParseAddCommand(text).Success? ==>
      var c := ParseAddCommand(text).value;
      && r.0.credentials == CS.AddCredential(flow.credentials, c)
      && r.0.mapper == flow.mapper
      && (starts(c) ==>
            r.0.sessions == flow.sessions[c.apiId := c]
            && r.1 == [CredentialSaved(c), SessionStarted(c), AdminNotified(BA.SendMessage(ToDecimal(config.adminId), ADD_CONFIRMATION))])
      && (!starts(c) ==> r.0.sessions == flow.sessions && r.1 == [CredentialSaved(c)])
  {
    AddParsed(flow, config, ParseAddCommand(text), starts)
  }

  /** The api ids of a credential list. */
  function ApiIds(cs: seq<CS.Credential>): set<Int64> {
    set c | c in cs :: c.apiId as Int64
  }

  datatype StartupError =
    | MapperLoadFailed(mapperError: MM.LoadError)
    | CredentialsLoadFailed(credentialsError: CS.LoadError)
    | SessionFailed(credential: CS.Credential)

  /** No credential among `cs[j + 1..n]` has the api id of `cs[j]`. */
  predicate LastOfApiId(cs: seq<CS.Credential>, j: nat, n: nat)
    requires j < n <= |cs|
  {
    forall k :: j < k < n ==> cs[k].apiId != cs[j].apiId
  }

  /**
   * `sessions` is what starting `cs` in order leaves: one session per api id,
   * held by the last credential listed under it.
   */
  predicate SessionsFor(sessions: map<Int64, CS.Credential>, cs: seq<CS.Credential>) {
    && sessions.Keys == ApiIds(cs)
    && (forall id :: id in sessions ==> sessions[id] in cs && sessions[id].apiId == id)
    && (forall j :: 0 <= j < |cs| && LastOfApiId(cs, j, |cs|) ==> sessions[cs[j].apiId] == cs[j])
  }

  /** The sessions map after starting `cs` in list order: each start puts its credential under its api id. */
  function StartedSessions(cs: seq<CS.Credential>): map<Int64, CS.Credential>
    decreases |cs|
  {
    if |cs| == 0 then map[] else StartedSessions(cs[..|cs| - 1])[cs[|cs| - 1].apiId := cs[|cs| - 1]]
  }

  /** Starting `cs` in order leaves one session per api id, held by the last credential listed under it. */
  lemma {:induction false} StartedSessionsFor(cs: seq<CS.Credential>)
    ensures SessionsFor(StartedSessions(cs), cs)
    decreases |cs|
  {
    if |cs| == 0 {
      assert ApiIds(cs) == {};
    } else {
      var n := |cs| - 1;
      assert cs[..n][..n] == cs[..n];
      StartedSessionsFor(cs[..n]);
      SessionsForStep(StartedSessions(cs[..n]), cs, n);
      assert cs[..n + 1] == cs;
    }
  }

  /** The last credential of its api id in `creds[..i + 1]`, other than `creds[i]`, is last in `creds[..i]` too. */
  lemma LastOfApiIdPrefix(creds: seq<CS.Credential>, i: nat, j: nat)
    requires j < i < |creds| && LastOfApiId(creds[..i + 1], j, i + 1)
    ensures creds[i].apiId != creds[j].apiId && LastOfApiId(creds[..i], j, i)
  {
  }

  /** Starting one more credential replaces the session under its api id. */
  lemma SessionsForStep(sessions: map<Int64, CS.Credential>, creds: seq<CS.Credential>, i: nat)
    requires i < |creds| && SessionsFor(sessions, creds[..i])
    ensures SessionsFor(sessions[creds[i].apiId := creds[i]], creds[..i + 1])
  {
    var cs, c := creds[..i], creds[i];
    var cs' := creds[..i + 1];
    assert cs' == cs + [c];
    var sessions' := sessions[c.apiId := c];
    assert ApiIds(cs') == ApiIds(cs) + {c.apiId as Int64};
    assert sessions'.Keys == sessions.Keys + {c.apiId as Int64};
    forall id | id in sessions'
      ensures sessions'[id] in cs' && sessions'[id].apiId == id
    {
      if id != c.apiId as Int64 {
        assert sessions'[id] == sessions[id] && sessions[id] in cs;
      }
    }
    forall j | 0 <= j < |cs'| && LastOfApiId(cs', j, |cs'|)
      ensures sessions'[cs'[j].apiId] == cs'[j]
    {
      if j < i {
        LastOfApiIdPrefix(creds, i, j);
      }
    }
  }

  /**
   * The `ProgramFlow` constructor: open the correlation store, load the
   * credentials, then start one session per credential in list order; the
   * first failure aborts startup. A later duplicate api id replaces the session,
   * so each api id ends up with the last credential listed under it.
   */
  method Startup(mapperFile: MM.MapperFile, credentialsFile: CS.CredentialsFile, starts: SessionStarter)
    returns (r: Result<Flow, StartupError>)
    ensures r.Success? <==>
      MM.Open(mapperFile).Success? && CS.LoadCredentials(credentialsFile).Success?
      && forall c :: c in CS.LoadCredentials(credentialsFile).value.credentials ==> starts(c)
    ensures r.Success? ==> r.value.mapper == MM.Open(mapperFile).value
    ensures r.Success? ==> r.value.credentials == CS.LoadCredentials(credentialsFile).value
    ensures r.Success? ==> r.value.sessions.Keys == ApiIds(r.value.credentials.credentials)
    ensures r.Success? ==> forall id :: id in r.value.sessions ==>
      r.value.sessions[id] in r.value.credentials.credentials && r.value.sessions[id].apiId == id
    ensures r.Success? ==>
      var cs := r.value.credentials.credentials;
      forall j :: 0 <= j < |cs| && LastOfApiId(cs, j, |cs|) ==> r.value.sessions[cs[j].apiId] == cs[j]
  {
    var mapper := MM.Open(mapperFile);
    if mapper.Failure? {
      return Failure(MapperLoadFailed(mapper.error));
    }
    var store := CS.LoadCredentials(credentialsFile);
    if store.Failure? {
      return Failure(CredentialsLoadFailed(store.error));
    }
    var creds := store.value.credentials;
    var sessions: map<Int64, CS.Credential> := map[];
    var i := 0;
    while i < |creds|
      invariant 0 <= i <= |creds|
      invariant forall j :: 0 <= j < i ==> starts(creds[j])
      invariant sessions == StartedSessions(creds[..i])
    {
      if !starts(creds[i]) {
        return Failure(SessionFailed(creds[i]));
      }
      assert creds[..i + 1][..i] == creds[..i];
      sessions := sessions[creds[i].apiId := creds[i]];
      i := i + 1;
    }
    assert creds[..i] == creds;
    StartedSessionsFor(creds);
    return Success(Flow(mapper.value, store.value, sessions));
  }

  // ------------------------------------------------------------------ reply

  datatype ReplyError =
    | NotAReply                          // the message has no replied-to message
    | MissingMapping(notificationId: Int64)
    | NoSession(apiId: Int64)

  /**
   * `handleReply`: look up the replied-to notification, convert the reply for
   * the recorded chat and send it through the session under the recorded api id.
   */
  function HandleReply(flow: Flow, download: RC.Downloader, message: BA.Message): (r: Result<(Int64, Td.SendMessage), ReplyError>)
    ensures r.Success? <==>
      && message.replyTo.Some?
      && MM.GetMapping(flow.mapper, message.replyTo.value).Some?
      && MM.GetMapping(flow.mapper, message.replyTo.value).value.apiId in flow.sessions
    ensures r.Success? ==>
      var b := MM.GetMapping(flow.mapper, message.replyTo.value).value;
      && r.value.0 == b.apiId
      && r.value.1.chatId == b.chatId
      && r.value.1 == RC.ConvertTelegramMessage(download, message, b.chatId)
    ensures message.replyTo.Some? && MM.GetMapping(flow.mapper, message.replyTo.value).None? ==>
      r == Failure(MissingMapping(message.replyTo.value))
  {
    match message.replyTo
    case None => Failure(NotAReply)
    case Some(replyId) =>
      match MM.GetMapping(flow.mapper, replyId)
      case None => Failure(MissingMapping(replyId))
      case Some(binding) =>
        if binding.apiId !in flow.sessions then Failure(NoSession(binding.apiId))
        else Success((binding.apiId, RC.ConvertTelegramMessage(download, message, binding.chatId)))
  }

  // ------------------------------------------------------------- dispatch

  datatype Step = Step(flow: Flow, bot: B.State, effects: seq<Effect>)

  /** One update from the Bots API, from `onUpdateReceived` down to the program flow. */
  function OnUpdate(flow: Flow, bot: B.State, config: B.Config, update: BA.Update,
                    download: RC.Downloader, starts: SessionStarter): (r: Step)
    ensures r.flow.mapper == flow.mapper
    ensures r.bot == B.OnUpdateReceived(config, bot, update).0
    ensures !B.OnUpdateReceived(config, bot, update).1.RunAddCommand? ==> r.flow == flow
    ensures var a := B.OnUpdateReceived(config, bot, update).1;
      a.RouteReply? ==>
        r.effects == (if HandleReply(flow, download, a.message).Success?
                      then [ReplySent(HandleReply(flow, download, a.message).value.0, HandleReply(flow, download, a.message).value.1)]
                      else [])
    ensures var a := B.OnUpdateReceived(config, bot, update).1;
      a.RunAddCommand? ==> (r.flow, r.effects) == ProcessAddCommand(flow, config, a.message.text.value, starts)
    ensures var a := B.OnUpdateReceived(config, bot, update).1;
      a.CompleteCode? ==> r.effects == [CodeDelivered(a.future, a.code)]
    ensures var a := B.OnUpdateReceived(config, bot, update).1;
      a.Ignore? || a.NullTextFailure? ==> r.effects == []
  {
    var (bot', action) := B.OnUpdateReceived(config, bot, update);
    match action
    case Ignore => Step(flow, bot', [])
    case NullTextFailure => Step(flow, bot', [])
    case CompleteCode(future, code) => Step(flow, bot', [CodeDelivered(future, code)])
    case RouteReply(m) =>
      (match HandleReply(flow, download, m)
       case Failure(_) => Step(flow, bot', [])
       case Success((apiId, request)) => Step(flow, bot', [ReplySent(apiId, request)]))
    case RunAddCommand(m) =>
      var (flow', effects) := ProcessAddCommand(flow, config, m.text.value, starts);
      Step(flow', bot', effects)
  }

  /** While a code is awaited, even an `/add` command is taken as the code and changes no store. */
  lemma CodeWaitShadowsAdd(flow: Flow, bot: B.State, config: B.Config, message: BA.Message,
                           download: RC.Downloader, starts: SessionStarter)
    requires bot.waitingForCode && message.chatId == config.adminId && message.replyTo.None?
    requires message.text.Some? && StartsWith(message.text.value, B.ADD_COMMAND)
    ensures OnUpdate(flow, bot, config, BA.Update(Some(message)), download, starts)
         == Step(flow, B.State(false, bot.codeFuture + 1), [CodeDelivered(bot.codeFuture, message.text)])
  {
  }

  // ------------------------------------------------------- end-to-end laws

  /**
   * A relayed message can be answered: a reply to its notification is sent
   * through the session registered under the same api id, to the same chat, as
   * the reverse conversion of the reply. Sessions are keyed by api id alone, so
   * this is the relaying account only while no later credential has reused that
   * api id (see `ReusedApiIdTakesOverReplies`).
   */
  lemma RelayThenReplyRoutesBack(flow: Flow, apiId: Int32, message: Td.Message, me: Int64,
                                 chat: Result<Td.Chat, string>, getUser: UserLookup, time: string,
                                 sent: Result<Int32, string>, download: RC.Downloader, reply: BA.Message)
    requires RelayConditions(message, me, chat, getUser, sent)
    requires reply.replyTo == Some(sent.value)
    requires apiId as Int64 in flow.sessions
    ensures
      var relay := HandleNewMessage(flow.mapper, apiId, message, me, chat, getUser, time, sent);
      HandleReply(flow.(mapper := relay.mapper), download, reply)
        == Success((apiId as Int64, RC.ConvertTelegramMessage(download, reply, message.chatId)))
  {
  }

  /** Two relays with different notification ids, from any accounts, keep both routes intact. */
  lemma RelaysDoNotInterfere(mapper: MM.Mapper,
                             a1: Int32, m1: Td.Message, me1: Int64, chat1: Result<Td.Chat, string>, g1: UserLookup, sent1: Result<Int32, string>,
                             a2: Int32, m2: Td.Message, me2: Int64, chat2: Result<Td.Chat, string>, g2: UserLookup, sent2: Result<Int32, string>,
                             time: string)
    requires RelayConditions(m1, me1, chat1, g1, sent1) && RelayConditions(m2, me2, chat2, g2, sent2)
    requires sent1.value != sent2.value
    ensures
      var first := HandleNewMessage(mapper, a1, m1, me1, chat1, g1, time, sent1);
      var second := HandleNewMessage(first.mapper, a2, m2, me2, chat2, g2, time, sent2);
      && MM.GetMapping(second.mapper, sent1.value) == Some(MM.Binding(a1, m1.chatId))
      && MM.GetMapping(second.mapper, sent2.value) == Some(MM.Binding(a2, m2.chatId))
  {
  }

  /**
   * The text round trip: a private text message is converted to a send of that
   * text addressed to the source chat's decimal id, and a text reply to the
   * notification goes back as that text, through the session registered under
   * the relaying api id, to the originating chat.
   */
  lemma TextRoundTrip(flow: Flow, apiId: Int32, message: Td.Message, me: Int64,
                      chat: Result<Td.Chat, string>, getUser: UserLookup, time: string,
                      sent: Result<Int32, string>, fetch: MC.Fetcher, copy: MC.Copier,
                      download: RC.Downloader, reply: BA.Message)
    requires message.content.MessageText?
    requires RelayConditions(message, me, chat, getUser, sent)
    requires reply.replyTo == Some(sent.value) && reply.text.Some? && |reply.text.value| > 0
    requires apiId as Int64 in flow.sessions
    ensures MC.ConvertTdlightMessage(fetch, copy, message)
         == Success(BA.SendMessage(ToDecimal(message.chatId), message.content.text))
    ensures
      var relay := HandleNewMessage(flow.mapper, apiId, message, me, chat, getUser, time, sent);
      HandleReply(flow.(mapper := relay.mapper), download, reply)
        == Success((apiId as Int64, Td.SendMessage(message.chatId, Td.InputMessageText(reply.text.value))))
  {
    RelayThenReplyRoutesBack(flow, apiId, message, me, chat, getUser, time, sent, download, reply);
  }

  /**
   * Replies follow the api id, not the phone number: once `/add` starts a
   * session for another credential with the same api id, a reply to a message
   * relayed earlier is sent through that new credential's session.
   */
  lemma ReusedApiIdTakesOverReplies(flow: Flow, config: B.Config, apiId: Int32, message: Td.Message, me: Int64,
                                    chat: Result<Td.Chat, string>, getUser: UserLookup, time: string,
                                    sent: Result<Int32, string>, newcomer: CS.Credential, starts: SessionStarter,
                                    download: RC.Downloader, reply: BA.Message)
    requires RelayConditions(message, me, chat, getUser, sent)
    requires reply.replyTo == Some(sent.value)
    requires newcomer.apiId == apiId as Int64 && starts(newcomer)
    ensures
      var relayed := flow.(mapper := HandleNewMessage(flow.mapper, apiId, message, me, chat, getUser, time, sent).mapper);
      var added := AddParsed(relayed, config, Success(newcomer), starts).0;
      && added.sessions[apiId as Int64] == newcomer
      && HandleReply(added, download, reply)
         == Success((apiId as Int64, RC.ConvertTelegramMessage(download, reply, message.chatId)))
  {
  }

  /**
   * The two directions handle a failed media download differently: towards the
   * operator the failure is thrown, towards the account it becomes a text.
   */
  lemma MediaFailurePolicies(fetch: MC.Fetcher, copy: MC.Copier, message: Td.Message,
                             download: RC.Downloader, reply: BA.Message, chatId: Int64)
    requires MC.IsMedia(message.content) && MC.MediaFile(message.content).Some?
    requires fetch(MC.MediaFile(message.content).value).None?
    requires RC.IsMediaKind(RC.SelectedKind(reply)) && download(RC.DownloadedFileId(reply)).Failure?
    ensures MC.ConvertTdlightMessage(fetch, copy, message) == Failure(MC.DownloadFailed(MC.DOWNLOAD_FAILED))
    ensures RC.ConvertTelegramMessage(download, reply, chatId).inputMessageContent.InputMessageText?
  {
  }

  /** Whatever the forward converter produces is a method `execute` sends rather than dropping. */
  lemma ConvertedMethodIsExecuted(fetch: MC.Fetcher, copy: MC.Copier, message: Td.Message)
    requires MC.ConvertTdlightMessage(fetch, copy, message).Success?
    ensures B.Execute(MC.ConvertTdlightMessage(fetch, copy, message).value)
         == Some(MC.ConvertTdlightMessage(fetch, copy, message).value)
  {
  }
}

=== FILE: reverse_message_converter.dfy ===
/**
 * Reverse conversion: an operator's Bots API message becomes the TDLib send
 * request for the originating chat. Media are downloaded from the Bots API; a
 * failed download degrades to a text message naming the error.
 */
module ReverseMessageConverter {
  import opened Wrappers
  import opened Decimal
  import opened TdApi
  import Bot = BotApi

  const UNSUPPORTED: string := "Неподдерживаемый тип сообщения"
  const PHOTO_ERROR: string := "Ошибка загрузки фото: "
  const VOICE_ERROR: string := "Ошибка загрузки голосового сообщения: "
  const STICKER_ERROR: string := "Ошибка загрузки стикера: "
  const ANIMATION_ERROR: string := "Ошибка загрузки анимации: "

  /** `TelegramFileDownloader.downloadFile(fileId, token)`: a local path, or the message of the exception thrown. */
  type Downloader = string -> Result<string, string>

  /** The branch a message takes, in the order the converter tests them. */
  datatype Kind = TextKind | PhotoKind | VoiceKind | StickerKind | AnimationKind | Unsupported

  function SelectedKind(m: Bot.Message): Kind {
    if m.text.Some? && |m.text.value| > 0 then TextKind
    else if m.photo.Some? && |m.photo.value| > 0 then PhotoKind
    else if m.voice.Some? then VoiceKind
    else if m.sticker.Some? then StickerKind
    else if m.animation.Some? then AnimationKind
    else Unsupported
  }

  predicate IsMediaKind(k: Kind) {
    k == PhotoKind || k == VoiceKind || k == StickerKind || k == AnimationKind
  }

  /** The file id downloaded for a media message: for a photo, the last (largest) size. */
  function DownloadedFileId(m: Bot.Message): string
    requires IsMediaKind(SelectedKind(m))
  {
    match SelectedKind(m)
    case PhotoKind => m.photo.value[|m.photo.value| - 1].fileId
    case VoiceKind => m.voice.value.fileId
    case StickerKind => m.sticker.value
    case AnimationKind => m.animation.value
  }

  function ErrorPrefix(k: Kind): string
    requires IsMediaKind(k)
  {
    match k
    case PhotoKind => PHOTO_ERROR
    case VoiceKind => VOICE_ERROR
    case StickerKind => STICKER_ERROR
    case AnimationKind => ANIMATION_ERROR
  }

  /** The content kind that relays a media kind unchanged. */
  predicate CarriesKind(c: InputMessageContent, k: Kind) {
    match k
    case TextKind => c.InputMessageText?
    case PhotoKind => c.InputMessagePhoto?
    case VoiceKind => c.InputMessageVoiceNote?
    case StickerKind => c.InputMessageSticker?
    case AnimationKind => c.InputMessageAnimation?
    case Unsupported => c.InputMessageText?
  }

  function UploadedFile(c: InputMessageContent): string
    requires !c.InputMessageText?
  {
    match c
    case InputMessagePhoto(f, _) => f
    case InputMessageVoiceNote(f, _) => f
    case InputMessageSticker(f) => f
    case InputMessageAnimation(f, _) => f
  }

  function CaptionOrEmpty(m: Bot.Message): string {
    if m.caption.Some? then m.caption.value else ""
  }

  /** `convertTelegramMessage(message, chatId)`: never throws; exactly one content is set. */
  function ConvertTelegramMessage(download: Downloader, message: Bot.Message, chatId: Int64): (r: SendMessage)
    ensures r.chatId == chatId
    ensures SelectedKind(message) == TextKind ==> r.inputMessageContent == InputMessageText(message.text.value)
    ensures SelectedKind(message) == Unsupported ==> r.inputMessageContent == InputMessageText(UNSUPPORTED)
    ensures IsMediaKind(SelectedKind(message)) && download(DownloadedFileId(message)).Success? ==>
      && CarriesKind(r.inputMessageContent, SelectedKind(message))
      && UploadedFile(r.inputMessageContent) == download(DownloadedFileId(message)).value
    ensures IsMediaKind(SelectedKind(message)) && download(DownloadedFileId(message)).Failure? ==>
      r.inputMessageContent == InputMessageText(ErrorPrefix(SelectedKind(message)) + download(DownloadedFileId(message)).error)
    ensures r.inputMessageContent.InputMessagePhoto? ==> r.inputMessageContent.caption == CaptionOrEmpty(message)
    ensures r.inputMessageContent.InputMessageAnimation? ==> r.inputMessageContent.caption == CaptionOrEmpty(message)
    ensures r.inputMessageContent.InputMessageVoiceNote? ==> r.inputMessageContent.duration == message.voice.value.duration
  {
    var content :=
      if message.text.Some? && |message.text.value| > 0 then
        InputMessageText(message.text.value)
      else if message.photo.Some? && |message.photo.value| > 0 then
        var largest := message.photo.value[|message.photo.value| - 1];
        match download(largest.fileId)
        case Success(path) => InputMessagePhoto(path, CaptionOrEmpty(message))
        case Failure(e) => InputMessageText(PHOTO_ERROR + e)
      else if message.voice.Some? then
        match download(message.voice.value.fileId)
        case Success(path) => InputMessageVoiceNote(path, message.voice.value.duration)
        case Failure(e) => InputMessageText(VOICE_ERROR + e)
      else if message.sticker.Some? then
        match download(message.sticker.value)
        case Success(path) => InputMessageSticker(path)
        case Failure(e) => InputMessageText(STICKER_ERROR + e)
      else if message.animation.Some? then
        match download(message.animation.value)
        case Success(path) => InputMessageAnimation(path, CaptionOrEmpty(message))
        case Failure(e) => InputMessageText(ANIMATION_ERROR + e)
      else
        InputMessageText(UNSUPPORTED);
    SendMessage(chatId, content)
  }

  /** An empty text is treated like no text at all: the media checks decide. */
  lemma EmptyTextFallsThrough(download: Downloader, message: Bot.Message, chatId: Int64)
    requires message.text == Some("")
    ensures ConvertTelegramMessage(download, message, chatId) == ConvertTelegramMessage(download, message.(text := None), chatId)
  {
  }

  /** The content is text exactly for a text message, an unsupported one, or a failed download; a text content is never empty. */
  lemma TextExactlyWhenNoMedia(download: Downloader, message: Bot.Message, chatId: Int64)
    ensures ConvertTelegramMessage(download, message, chatId).inputMessageContent.InputMessageText? <==>
      (!IsMediaKind(SelectedKind(message)) || download(DownloadedFileId(message)).Failure?)
    ensures ConvertTelegramMessage(download, message, chatId).inputMessageContent.InputMessageText? ==>
      |ConvertTelegramMessage(download, message, chatId).inputMessageContent.text| > 0
  {
  }
}

=== FILE: td_api.dfy ===
/**
 * The TDLib (TDLight) values the relay core reads and builds, reduced to the
 * fields it touches. A file is referred to by its TDLib file id; a local file
 * by its path.
 */
module TdApi {
  import opened Decimal
  import opened Wrappers

  datatype MessageSender =
    | MessageSenderUser(userId: Int64)
    | MessageSenderChat(chatId: Int64)

  /** One size of a photo; sizes are listed smallest first. */
  datatype PhotoSize = PhotoSize(fileId: Int32)

  /** The content kinds the converters tell apart; every other kind is `OtherContent`. */
  datatype MessageContent =
    | MessageText(text: string)
    | MessagePhoto(sizes: seq<PhotoSize>)
    | MessageVoiceNote(voiceFileId: Int32)
    | MessageSticker(stickerFileId: Int32)
    | MessageAnimation(animationFileId: Int32)
    | OtherContent(className: string)

  datatype Message = Message(id: Int64, chatId: Int64, senderId: MessageSender, content: MessageContent, date: Int32)

  datatype ChatType = ChatTypePrivate | ChatTypeSecret | ChatTypeBasicGroup | ChatTypeSupergroup

  datatype Chat = Chat(id: Int64, title: string, chatType: ChatType)

  /**
   * A user; `usernames` is the active usernames of the `usernames` object,
   * `None` where TDLib leaves that object null.
   */
  datatype User = User(id: Int64, usernames: Option<seq<string>>)

  /** The one content a `SendMessage` request carries. */
  datatype InputMessageContent =
    | InputMessageText(text: string)
    | InputMessagePhoto(photo: string, caption: string)
    | InputMessageVoiceNote(voiceNote: string, duration: Int32)
    | InputMessageSticker(sticker: string)
    | InputMessageAnimation(animation: string, caption: string)

  datatype SendMessage = SendMessage(chatId: Int64, inputMessageContent: InputMessageContent)

  datatype ViewMessages = ViewMessages(chatId: Int64, messageIds: seq<Int64>, forceRead: bool)
}

=== FILE: wrappers.dfy ===
/** Option and Result: the model's stand-ins for Java's `null` and for exceptions. */
module Wrappers {

  /** `None` plays the part of a Java `null`. */
  datatype Option<+T> = None | Some(value: T)

  /** `Failure` carries what a thrown exception would have reported. */
  datatype Result<+T, +E> = Success(value: T) | Failure(error: E)
}
